=== FILE: README.md ===
# common-club core in Dafny

This project models the shared backend package of the "club" applications,
`common_club`, and proves properties about the model. That package covers:

- the connection registry, which lazily opens two SQLite databases: a common
  one for users and categories, and an app-specific one;
- the SQLite URL computed from a database path;
- the scoped session that every request uses;
- the idempotent seeding of the 53 predefined categories;
- the JWT claims an access token carries, and how verification turns the
  library's answer into a payload or a `ValueError`;
- the two FastAPI identity dependencies;
- the `users`, `shared_categories` and `app_settings` records and their
  `to_dict` projections;
- the pydantic request and response schemas for users and categories.

One Dafny module stands for each source file:

| module | file | form |
|---|---|---|
| `Connection` | `connection.dfy` | class `Registry`, with the four module globals as fields |
| `Base` | `base.dfy` | pure URL and path functions; classes `Store` and `Session` |
| `InitDb` | `init_db.dfy` | the seeding loop and the initialisation sequence as methods, specified by `Seeded` |
| `JwtHandler` | `jwt_handler.dfy` | functions; `jwt.encode`/`jwt.decode` are parameters |
| `Dependencies` | `dependencies.dfy` | functions from the verification outcome to an `Identity` |
| `SharedCategoryModel`, `UserModel` | `shared_category.dfy`, `user_model.dfy` | record datatypes and their dict projections |
| `CategorySchemas`, `UserSchemas` | `category_schema.dfy`, `user_schema.dfy` | parsers from a JSON body to an optional record |

Three helper modules support them:

- `Common` holds `Option`, `Result`, payload values and exception values.
- `PyInt` holds Python's `str(int)` and `int(...)`.
- `Fields` describes how pydantic reads one field.

The environment, the working directory, the home directory and the clock are
parameters. SQLAlchemy engines are values that carry a creation number and
their URL. A database table is a `Store` object whose `rows` field commits
extend.

Some consequences of the code that the model keeps:

- `get_current_user_id` returns whatever `int()` makes of the subject, which
  may be zero or negative.
- `get_current_user_email` lets exceptions other than `ValueError` escape,
  while `get_current_user_id` turns every failure into a 401.
- `init_common_db` and `init_app_db` never touch the file, because
  `create_engine` connects lazily. So an unreachable store is not reported at
  initialisation. Only a missing `APP_DB_PATH` fails there.
- The lazy initialisation of the globals takes no lock; it is modelled
  sequentially.
- `initialize_database` runs `next(get_common_db())` and keeps no reference to
  the generator. CPython finalises the generator as soon as it has yielded,
  so its `finally` closes the session before seeding starts. Seeding then runs
  on the closed session, which SQLAlchemy 2.x reopens on use, and the session
  is closed a second time afterwards.

## Model

| member | source | states |
|---|---|---|
| `Connection.CommonDbPath` | common_club/database/connection.py:29-30 | an explicit path wins; otherwise `COMMON_DB_PATH`, otherwise "../common-club/common-club.db" |
| `Connection.AppDbPath` | common_club/database/connection.py:48-54 | an explicit path wins; otherwise a non-empty `APP_DB_PATH`; otherwise the `ValueError` with the configuration message |
| `Connection.Registry.constructor` | common_club/database/connection.py:13-16 | all four globals start as `None` and no engine exists |
| `Connection.Registry.NewEngine` | common_club/database/connection.py:32 | each engine created gets the next creation number, so no two engines are equal |
| `Connection.Registry.InitCommonDb` | common_club/database/connection.py:19-35 | replaces the common slot with a new engine for the resolved path and its session maker; the app slot is untouched |
| `Connection.Registry.InitAppDb` | common_club/database/connection.py:38-59 | same for the app slot; on the configuration error nothing changes and no engine is created |
| `Connection.Registry.GetCommonDb` | common_club/database/connection.py:62-86 | initialises the common slot (default resolution) only when it is empty; otherwise returns the existing maker and creates nothing |
| `Connection.Registry.GetAppDb` | common_club/database/connection.py:89-112 | same for the app slot; the configuration error propagates with both slots unchanged |
| `Connection.Registry.GetCommonEngine` | common_club/database/connection.py:115-120 | returns the common engine, creating it only when the slot is empty |
| `Connection.Registry.GetAppEngine` | common_club/database/connection.py:123-128 | returns the app engine, creating it only when the slot is empty, else the configuration error |
| `Connection.CommonSessionsShareEngine` | common_club/database/connection.py:83-86 | two session requests on a fresh registry use the same maker and create exactly one engine |
| `Connection.AppSessionNeedsConfiguredPath` | common_club/database/connection.py:107-112 | with `APP_DB_PATH` unset or empty, an app session request fails with the configuration error before any engine exists |
| `Connection.ReinitReplacesEngine` | common_club/database/connection.py:27-35 | a second `init_common_db` installs a different engine for the same URL, which `get_common_engine` then returns |
| `Base.ExpandUser` | common_club/database/base.py:34 | a leading `~` alone or before '/' becomes the home directory without trailing slashes ("/" for an empty one); `~name` and paths without `~` are unchanged |
| `Base.GetDatabaseUrl` | common_club/database/base.py:18-40 | "sqlite:///" followed by the `~`-expanded path, verbatim when absolute, otherwise normalised against the working directory |
| `Base.NormPathOfAbsolute` | common_club/database/base.py:37-38 | `abspath`'s normalisation keeps an absolute path absolute and removes every "." and ".." component |
| `Base.DatabaseUrlNamesAbsolutePath` | common_club/database/base.py:33-40 | whatever the input, the URL names an absolute path, and one free of dot components when the `~`-expanded input is relative |
| `Base.SplitJoin` | common_club/database/base.py:38 | splitting a '/'-joined list of separator-free components gives the components back |
| `Base.CreateDatabaseEngine` | common_club/database/base.py:43-63 | the engine carries the given creation number and exactly the URL `GetDatabaseUrl` computes for its path |
| `Base.CreateSessionMaker` | common_club/database/base.py:66-80 | the maker is bound to the engine, with autocommit and autoflush off |
| `Base.Session.constructor` | common_club/database/base.py:104 | a new session from a maker is open, has nothing pending and has committed nothing |
| `Base.Session.Add` | common_club/database/init_db.py:135 | appends one row to the pending rows |
| `Base.Session.Commit` | common_club/database/init_db.py:137 | counts one commit; on a writable store the pending rows reach the table in order, otherwise it fails with the read-only error and the table is unchanged |
| `Base.Session.Close` | common_club/database/base.py:107-108 | closing discards what is pending and counts one close |
| `Base.GetDatabaseSession` | common_club/database/base.py:83-108 | the session yielded is fresh, comes from the maker, commits nothing itself, and is closed exactly once whichever way the handler ended |
| `InitDb.PredefinedEntriesValid` | common_club/database/init_db.py:16-89 | there are 53 entries, each of type income or expense and scope coin or all, and each passes the `CategoryBase` rules |
| `InitDb.SeedRow` | common_club/database/init_db.py:127-134 | a seeded row is predefined and ownerless, has no parent, and copies name, type, icon and scope from its entry |
| `InitDb.PredefinedRows` | common_club/database/init_db.py:126-135 | one seeded row per entry: row i is the seed row of entry i, in list order |
| `InitDb.CountPredefined` | common_club/database/init_db.py:117-119 | the number of predefined rows in the table, never more than its size; `CountPredefinedPositive` says when it is positive |
| `InitDb.CountPredefinedPositive` | common_club/database/init_db.py:117-121 | the predefined-row count is positive exactly when some row is predefined |
| `InitDb.Seeded` | common_club/database/init_db.py:117-135 | existing rows are kept; with a predefined row present nothing is added, otherwise the predefined rows follow |
| `InitDb.PredefinedRowsWellFormed` | common_club/database/init_db.py:127-134 | every seeded row keeps the ownership convention and, once given an id, is a valid `CategoryResponse` |
| `InitDb.SeededHasPredefinedRow` | common_club/database/init_db.py:117-137 | after seeding, the table holds a predefined row |
| `InitDb.SeedIdempotent` | common_club/database/init_db.py:121-123 | seeding twice gives the same table as seeding once |
| `InitDb.UserRowsDoNotBlock` | common_club/database/init_db.py:117-135 | a table of user categories only gets all 53 predefined rows appended after its own |
| `InitDb.AddSeedRows` | common_club/database/init_db.py:126-135 | the loop adds one seeded row per entry to the pending rows, in order, and commits nothing |
| `InitDb.SeedEntries` | common_club/database/init_db.py:116-137 | for any entry list: with a predefined row present, nothing is added or committed; otherwise one row per entry is added in order and the session is committed once |
| `InitDb.SeedPredefinedCategories` | common_club/database/init_db.py:107-138 | with a predefined row present, nothing is added or committed; otherwise 53 rows are added in order and committed once; a failed commit leaves the table unchanged |
| `InitDb.InitializeDatabase` | common_club/database/init_db.py:141-170 | initialises the common slot with one new engine; seeds only when `seed_data` holds, through one session from the common session generator, committed at most once and closed twice: once when the discarded generator is finalised before seeding, once in the `finally`, even when seeding fails |
| `InitDb.SeedTwiceSameAsOnce` | common_club/database/init_db.py:116-137 | two seeding runs through one session leave the table as one run does |
| `InitDb.InitializeTwiceSeedsOnce` | common_club/database/init_db.py:141-170 | two full initialisations succeed and create two engines, but seed the table only once |
| `PyInt.IntToString` | common_club/auth/jwt_handler.py:42 | `str(n)`: a minus sign exactly for negative `n`, then the digits of its magnitude |
| `PyInt.ParseIntOfIntToString` | common_club/auth/jwt_handler.py:42 | `int(str(n)) == n` for every integer |
| `PyInt.ToInt` | common_club/auth/jwt_handler.py:97 | `int(v)`: numeric strings parse and other strings (ISO text included) raise the invalid-literal `ValueError`; integers pass, booleans give 0 or 1, `None` and other objects raise `TypeError` |
| `PyInt.ToIntOfIntToString` | common_club/auth/jwt_handler.py:42 | the `sub` claim written by `str(user_id)` converts back to the id |
| `PyInt.IntToStringInjective` | common_club/auth/jwt_handler.py:42 | distinct ids give distinct `sub` claims |
| `JwtHandler.SecretKey` | common_club/auth/jwt_handler.py:14 | `JWT_SECRET_KEY` when set, the development default otherwise |
| `JwtHandler.ExpiresAt` | common_club/auth/jwt_handler.py:36-39 | `now + delta` for a non-zero delta, thirty days after `now` otherwise |
| `JwtHandler.Claims` | common_club/auth/jwt_handler.py:41-46 | exactly `sub`, `email`, `exp`, `iat`; `sub` is `str(user_id)`, `exp` the expiry, `iat` the issue time |
| `JwtHandler.IssuedClaimsAccepted` | common_club/auth/jwt_handler.py:41-48 | the dict `create_access_token` signs holds only JSON scalars, a string `sub` and integer `exp` and `iat`, so the library gives it back unchanged |
| `JwtHandler.SubjectReadsBack` | common_club/auth/jwt_handler.py:42 | `int()` of the `sub` claim gives back the user id |
| `JwtHandler.CreateAccessToken` | common_club/auth/jwt_handler.py:19-49 | the token is the encoding of exactly the `Claims` dict under the configured key and HS256 |
| `JwtHandler.VerifyToken` | common_club/auth/jwt_handler.py:70-80 | succeeds exactly on a decoded payload with a non-null `sub`; a JWT error becomes a `ValueError` "Invalid token: " + its message; other exceptions pass |
| `JwtHandler.GetUserIdFromToken` | common_club/auth/jwt_handler.py:96-97 | verification errors propagate; otherwise `int` of the `sub` claim |
| `JwtHandler.TokenRoundTrip` | common_club/auth/jwt_handler.py:19-80 | a token issued for a user and verified no later than its `exp` verifies to exactly the signed claims, and its subject reads back as the user id |
| `JwtHandler.ExpiredTokenRejected` | common_club/auth/jwt_handler.py:70-97 | a token verified after its `exp` is rejected by `verify_token` and `get_user_id_from_token` with "Invalid token: Signature has expired." |
| `JwtHandler.NegativeLifetimeNeverVerifies` | common_club/auth/jwt_handler.py:36-80 | a token issued with a negative `expires_delta` never verifies, not even at its issue time |
| `JwtHandler.ExpiryAfterIssue` | common_club/auth/jwt_handler.py:36-46 | `iat < exp` exactly when the requested lifetime is missing or not negative |
| `Dependencies.GetCurrentUserId` | common_club/auth/dependencies.py:42-67 | authenticates exactly when verification and `int()` succeed; every failure of either step is a 401 with the Bearer challenge, whose detail is the `ValueError` message or else "Could not validate credentials" |
| `Dependencies.GetCurrentUserEmail` | common_club/auth/dependencies.py:85-102 | authenticates exactly on a non-null `email` claim; 401s carry no header; non-`ValueError` exceptions escape unchanged |
| `Dependencies.CurrentUserId` | common_club/auth/dependencies.py:42-45 | on a bearer token: never lets an exception through, and authenticates exactly when `get_user_id_from_token` succeeds on it |
| `Dependencies.CurrentUserEmail` | common_club/auth/dependencies.py:85-88 | on a bearer token: authenticates exactly when it verifies with an `email` claim; only a non-`ValueError` from verification escapes |
| `Dependencies.IssuedTokenAuthenticates` | common_club/auth/dependencies.py:42-96 | a token issued for a user and presented no later than its `exp` authenticates as that user id and that email |
| `Dependencies.ExpiredTokenUnauthorized` | common_club/auth/dependencies.py:42-102 | a token presented after its `exp` gets a 401 from both dependencies with the expiry message; only the id dependency adds the challenge |
| `Dependencies.UserIdAgreesWithTokenHelper` | common_club/auth/dependencies.py:42-67 | the dependency authenticates exactly when `get_user_id_from_token` succeeds, with the same id, and otherwise answers 401 with the challenge |
| `Dependencies.ErrorNormalisationDiffers` | common_club/auth/dependencies.py:56-102 | on a `ValueError` both dependencies answer 401 with its message, but only the id dependency adds the header; other exceptions escape only the email dependency |
| `SharedCategoryModel.NewSharedCategory` | common_club/models/shared_category.py:24-32 | the row an INSERT writes: given columns set, `is_predefined` false and the nullable columns `None` by default, no id or timestamp yet |
| `SharedCategoryModel.CategoryToDict` | common_club/models/shared_category.py:37-49 | exactly nine keys, each the column of the same name; `created_at` is null exactly when unset |
| `SharedCategoryModel.CategoryToDictInjective` | common_club/models/shared_category.py:37-49 | the projection loses no column: equal dicts come from equal records |
| `SharedCategoryModel.DefaultsLeaveOwnershipToCaller` | common_club/models/shared_category.py:16-30 | the column defaults alone give a non-predefined record without an owner, so the documented convention is the caller's job |
| `SharedCategoryModel.SettingsToDict` | common_club/models/shared_category.py:70-79 | exactly six keys, each the column of the same name; `updated_at` is null exactly when unset |
| `UserModel.UserToDict` | common_club/models/user.py:31-39 | exactly five keys, never `password_hash` |
| `UserModel.ToDictHidesPasswordHash` | common_club/models/user.py:31-39 | users that differ only in their hash project to the same dict |
| `UserModel.InsertUser` | common_club/models/user.py:22 | an insert fails with the unique-constraint error exactly when the address is already present, and otherwise appends the user |
| `UserModel.InsertUserKeepsEmailsUnique` | common_club/models/user.py:22 | inserting keeps addresses unique across the table |
| `CategorySchemas.ParseCategoryBase` | common_club/schemas/category.py:12-23 | accepted exactly when name length is 1..100, the type is one of the three words, the scope one of the five, and the optional fields have their types; every field of the record is the body's value, and a missing or null optional becomes `None` |
| `CategorySchemas.OptionalFieldsDefaultToNone` | common_club/schemas/category.py:14-18 | a body with only the required fields has no icon and no parent |
| `CategorySchemas.TypeMustMatchExactly` | common_club/schemas/category.py:15 | a type outside the three exact words is rejected |
| `CategorySchemas.ParseCategoryUpdate` | common_club/schemas/category.py:26-31 | every field optional, but a given name or type must meet the create rules; each field of the update is the body's value, `None` exactly when missing or null |
| `CategorySchemas.EmptyUpdateIsValid` | common_club/schemas/category.py:26-31 | the empty update is valid and sets nothing |
| `CategorySchemas.UpdateIgnoresScopeAndFlag` | common_club/schemas/category.py:26-31 | `app_scope` and `is_predefined` in an update body change nothing |
| `CategorySchemas.CategoryResponseOf` | common_club/schemas/category.py:34-42 | building a response from a record succeeds exactly when it has an id and valid base fields, and copies its columns |
| `UserSchemas.ParseUserCreate` | common_club/schemas/user.py:12-20 | a valid address, an optional name and a password of at least eight characters; the record holds the validated address and the body's name and password |
| `UserSchemas.ParseUserLogin` | common_club/schemas/user.py:23-26 | a valid address and any password string; the record holds the validated address and the body's password |
| `UserSchemas.LoginAcceptsShortPasswords` | common_club/schemas/user.py:18-26 | a body rejected at registration only for a short password is still a valid login |
| `UserSchemas.ParseUserUpdate` | common_club/schemas/user.py:39-42 | both fields optional; a given address must be valid; each field is the body's value (the address as validated), `None` exactly when missing or null |
| `UserSchemas.EmptyUserUpdateIsValid` | common_club/schemas/user.py:39-42 | the empty update is valid |
| `UserSchemas.UserResponseOf` | common_club/schemas/user.py:29-36 | succeeds exactly with an id and a valid address, and copies every column but the hash |
| `UserSchemas.ResponseHidesPasswordHash` | common_club/schemas/user.py:29-36 | the response does not depend on the password hash |
| `UserSchemas.ParseTokenResponse` | common_club/schemas/user.py:45-49 | `access_token` required and copied; `token_type` is the body's when given and "bearer" otherwise |

## Left out

- HS256 signing, signature checking and the expiry check belong to the JOSE library. `jwt.encode` and `jwt.decode` are parameters, and the library's behaviour at decode time `at` is a hypothesis (`DecodeInvertsEncode`) of the lemmas that need it. The hypothesis covers only the claim sets `LibraryAccepts` admits: JSON scalars, a string `sub` and `jti`, integer `exp` and `iat`, and no `nbf` or `aud`. For those, an untampered token decodes to its claims, or to the expired-signature error once `exp` lies before `at`. Nothing is assumed for other claim sets, where the library's claim checks raise (a non-string `sub`, an `aud` with no audience given) or convert values. Tampered tokens and leeway are not modelled.
- `JwtHandler.CreateAccessToken` reads the clock once for both `exp` and `iat`. The source calls `datetime.utcnow()` twice, a few microseconds apart. Timestamps are whole seconds, not `datetime` values.
- common_club/auth/password.py (bcrypt hashing) is not part of this model.
- `create_tables` and SQLAlchemy's `create_all` are not modelled: the schema is assumed to exist. `InitDb.InitializeDatabase` skips that step.
- SQLAlchemy itself is not modelled: connection pools, the `check_same_thread` argument, extra `**kwargs` to `create_engine`, and query building. The session is only its pending rows, commits and closes. The count query reads the committed table, which matches `autoflush=False`.
- `Base.CreateDatabaseEngine` opens nothing, because `create_engine` is lazy. Errors reaching an unreachable file are not modelled.
- `Connection.Registry.GetCommonDb` and `Connection.Registry.GetAppDb` return the session maker where the source returns the generator `get_database_session(maker)`; that generator's behaviour is `Base.GetDatabaseSession`.
- `Base.GetDatabaseSession` and `Base.Session.constructor` take the table as a `Store` argument beside the maker: the caller supplies the table that belongs to the maker's engine, and nothing in the model ties a store to an engine's URL.
- `Base.GetDatabaseSession`: the request handler between `yield` and `finally` is represented only by how it ends.
- `SharedCategoryModel.NewSharedCategory` describes the row an INSERT writes. Before the flush, a transient object built without `is_predefined` holds `None` there, since the column default is applied only by the INSERT; such an unflushed object and its `to_dict` are not modelled.
- Primary keys and server-default timestamps are assigned by the database. Records carry them as `Option`s, and `isoformat` text is an abstract `IsoText` value.
- `Base.ExpandUser` does not expand `~name` for other users; it leaves such paths unchanged.
- `PyInt.ToInt`: for ISO text the `ValueError` message stops before the quoted literal, because `isoformat` text is not modelled.
- `PyInt.ToInt` does not model non-ASCII digits, floats (`int(3.7)`), bytes, or the `repr` quoting inside `int()`'s error message.
- pydantic's lax-mode coercions (for instance a numeric string accepted for an `int` field) are not modelled: a field must already have its type. `EmailStr` validation is a parameter, `UserSchemas.EmailValidator`.
- `CategoryListResponse` (two lists of category responses) adds no rule of its own and is not modelled.
- FastAPI plumbing (`Depends`, `HTTPBearer`, `async`), logging, and the `__repr__` methods are not modelled.
- Environment variables are read once, as a snapshot held by the registry. `JWT_SECRET_KEY` is read at import time.
- Concurrency: the model is sequential. Two threads racing through the lazy initialisation are not modelled.

=== FILE: base.dfy ===
/** common_club/database/base.py: the SQLite URL of a database file, the
    engine and session-maker records, and the scoped session that is closed on
    every exit path. The file system stays out: the home directory and the
    current directory are parameters, and the POSIX path rules of
    `os.path.expanduser`, `os.path.isabs` and `os.path.abspath` are written out. */
module Base {
  import opened Common

  const SqlitePrefix := "sqlite:///"

  predicate StartsWith(s: string, prefix: string) {
    |prefix| <= |s| && s[..|prefix|] == prefix
  }

  /** `os.path.isabs`. */
  predicate IsAbs(path: string) {
    |path| > 0 && path[0] == '/'
  }

  /** Index of the first '/' in `s` at or after `from`, or `|s|`. */
  function FindSep(s: string, from: nat): (i: nat)
    requires from <= |s|
    ensures from <= i <= |s|
    ensures i < |s| ==> s[i] == '/'
    ensures forall j :: from <= j < i ==> s[j] != '/'
    decreases |s| - from
  {
    if from == |s| || s[from] == '/' then from else FindSep(s, from + 1)
  }

  /** `s.rstrip('/')`. */
  function RStripSep(s: string): (t: string)
    ensures |t| <= |s| && t == s[..|t|]
    ensures t != [] ==> t[|t| - 1] != '/'
    decreases |s|
  {
    if s != [] && s[|s| - 1] == '/' then RStripSep(s[..|s| - 1]) else s
  }

  /** `os.path.expanduser` with `HOME` set to `home`: a leading `~` (alone or
      followed by '/') becomes the home directory without trailing slashes.
      `~name` forms are left as they are. */
  function ExpandUser(path: string, home: string): (r: string)
    ensures !StartsWith(path, "~") ==> r == path
    ensures path == "~" ==> r == (if RStripSep(home) == "" then "/" else RStripSep(home))
    ensures StartsWith(path, "~/") ==> r == RStripSep(home) + path[1..]
    ensures |path| > 1 && path[0] == '~' && path[1] != '/' ==> r == path
  {
    if !StartsWith(path, "~") then path
    else
      var i := FindSep(path, 1);
      if i != 1 then path
      else
        var expanded := RStripSep(home) + path[1..];
        if expanded == "" then "/" else expanded
  }

  /** `os.path.join(a, b)` for a relative `b`. */
  function Join(a: string, b: string): (r: string)
    ensures IsAbs(a) ==> IsAbs(r)
  {
    if a == "" || a[|a| - 1] == '/' then a + b else a + "/" + b
  }

  /** `s.split('/')`. */
  function Split(s: string): (parts: seq<string>)
    ensures |parts| >= 1
    decreases |s|
  {
    if s == [] then [""]
    else if s[0] == '/' then [""] + Split(s[1..])
    else
      var rest := Split(s[1..]);
      [[s[0]] + rest[0]] + rest[1..]
  }

  /** `'/'.join(parts)`. */
  function JoinParts(parts: seq<string>): string
    decreases |parts|
  {
    if parts == [] then ""
    else if |parts| == 1 then parts[0]
    else parts[0] + "/" + JoinParts(parts[1..])
  }

  /** The component loop of `posixpath.normpath`: empty and "." components
      are dropped, ".." pops the last kept component (and is kept only in a
      relative path with nothing to pop). */
  function NormComponents(parts: seq<string>, absolute: bool, kept: seq<string>): seq<string>
    decreases |parts|
  {
    if parts == [] then kept
    else
      var c := parts[0];
      var kept' :=
        if c == "" || c == "." then kept
        else if c != ".." || (!absolute && kept == []) || (kept != [] && kept[|kept| - 1] == "..")
        then kept + [c]
        else if kept != [] then kept[..|kept| - 1]
        else kept;
      NormComponents(parts[1..], absolute, kept')
  }

  /** `posixpath.normpath`. */
  function NormPath(path: string): string {
    if path == "" then "."
    else
      var slashes := if !StartsWith(path, "/") then ""
                     else if StartsWith(path, "//") && !StartsWith(path, "///") then "//"
                     else "/";
      var joined := slashes + JoinParts(NormComponents(Split(path), slashes != "", []));
      if joined == "" then "." else joined
  }

  /** `os.path.abspath` with `cwd` for `os.getcwd()`. */
  function AbsPath(path: string, cwd: string): string {
    NormPath(if IsAbs(path) then path else Join(cwd, path))
  }

  /** `get_database_url(db_path)`: "sqlite:///" followed by the path after
      `~` expansion, verbatim when that is absolute and otherwise made
      absolute against the current directory. */
  function GetDatabaseUrl(dbPath: string, cwd: string, home: string): (url: string)
    ensures StartsWith(url, SqlitePrefix)
    ensures IsAbs(ExpandUser(dbPath, home)) ==> url == SqlitePrefix + ExpandUser(dbPath, home)
    ensures !IsAbs(ExpandUser(dbPath, home)) ==>
              url == SqlitePrefix + NormPath(Join(cwd, ExpandUser(dbPath, home)))
  {
    var expanded := ExpandUser(dbPath, home);
    var resolved := if !IsAbs(expanded) then AbsPath(expanded, cwd) else expanded;
    SqlitePrefix + resolved
  }

  /** No component of the path is "." or "..". */
  predicate NoDotSegments(path: string) {
    forall seg :: seg in Split(path) ==> seg != "." && seg != ".."
  }

  predicate PlainComponents(comps: seq<string>) {
    forall i :: 0 <= i < |comps| ==> comps[i] != "" && comps[i] != "." && comps[i] != ".." && '/' !in comps[i]
  }

  lemma {:induction false} SplitSegmentsHaveNoSep(s: string)
    ensures forall i :: 0 <= i < |Split(s)| ==> '/' !in Split(s)[i]
    decreases |s|
  {
    if s != [] {
      SplitSegmentsHaveNoSep(s[1..]);
    }
  }

  lemma {:induction false} NormComponentsPlain(parts: seq<string>, kept: seq<string>)
    requires PlainComponents(kept)
    requires forall i :: 0 <= i < |parts| ==> '/' !in parts[i]
    ensures PlainComponents(NormComponents(parts, true, kept))
    decreases |parts|
  {
    if parts != [] {
      var c := parts[0];
      var kept' :=
        if c == "" || c == "." then kept
        else if c != ".." || (kept != [] && kept[|kept| - 1] == "..") then kept + [c]
        else if kept != [] then kept[..|kept| - 1]
        else kept;
      assert PlainComponents(kept');
      NormComponentsPlain(parts[1..], kept');
    }
  }

  lemma {:induction false} SplitJoin(comps: seq<string>)
    requires |comps| >= 1
    requires forall i :: 0 <= i < |comps| ==> '/' !in comps[i]
    ensures Split(JoinParts(comps)) == comps
    decreases |comps|
  {
    if |comps| == 1 {
      SplitNoSep(comps[0]);
    } else {
      SplitJoin(comps[1..]);
      SplitPrefix(comps[0], JoinParts(comps[1..]));
    }
  }

  lemma {:induction false} SplitNoSep(s: string)
    requires '/' !in s
    ensures Split(s) == [s]
    decreases |s|
  {
    if s != [] {
      assert s[0] != '/' && '/' !in s[1..];
      SplitNoSep(s[1..]);
      assert [s[0]] + s[1..] == s;
    }
  }

  lemma {:induction false} SplitPrefix(a: string, b: string)
    requires '/' !in a
    ensures Split(a + "/" + b) == [a] + Split(b)
    decreases |a|
  {
    if a == [] {
      assert a + "/" + b == "/" + b;
      assert ("/" + b)[1..] == b;
    } else {
      assert (a + "/" + b)[0] == a[0];
      assert (a + "/" + b)[1..] == a[1..] + "/" + b;
      assert '/' !in a[1..];
      SplitPrefix(a[1..], b);
      assert [a[0]] + a[1..] == a;
    }
  }

  /** Normalising an absolute path leaves an absolute path with no "." or
      ".." segment. */
  lemma NormPathOfAbsolute(path: string)
    requires IsAbs(path)
    ensures IsAbs(NormPath(path)) && NoDotSegments(NormPath(path))
  {
    var slashes := if StartsWith(path, "//") && !StartsWith(path, "///") then "//" else "/";
    SplitSegmentsHaveNoSep(path);
    var comps := NormComponents(Split(path), true, []);
    NormComponentsPlain(Split(path), []);
    var joined := slashes + JoinParts(comps);
    assert NormPath(path) == joined;
    if comps == [] {
      assert joined == slashes;
      assert Split("/") == ["", ""];
      assert Split("//") == ["", "", ""];
    } else {
      SplitJoin(comps);
      if slashes == "/" {
        assert Split(joined) == [""] + Split(JoinParts(comps)) by {
          assert joined[1..] == JoinParts(comps);
        }
      } else {
        assert Split(joined) == [""] + Split(joined[1..]);
        assert joined[1..] == "/" + JoinParts(comps);
        assert Split(joined[1..]) == [""] + Split(JoinParts(comps)) by {
          assert joined[1..][1..] == JoinParts(comps);
        }
      }
    }
  }

  /** Whatever the input, the URL names an absolute path with no "." or ".."
      segment, provided the current directory is absolute (as `os.getcwd()`
      always is) and an absolute input itself has none. */
  lemma DatabaseUrlNamesAbsolutePath(dbPath: string, cwd: string, home: string)
    requires IsAbs(cwd)
    ensures IsAbs(GetDatabaseUrl(dbPath, cwd, home)[|SqlitePrefix|..])
    ensures !IsAbs(ExpandUser(dbPath, home)) ==> NoDotSegments(GetDatabaseUrl(dbPath, cwd, home)[|SqlitePrefix|..])
  {
    var expanded := ExpandUser(dbPath, home);
    var url := GetDatabaseUrl(dbPath, cwd, home);
    if !IsAbs(expanded) {
      NormPathOfAbsolute(Join(cwd, expanded));
      assert url[|SqlitePrefix|..] == NormPath(Join(cwd, expanded));
    } else {
      assert url[|SqlitePrefix|..] == expanded;
    }
  }

  /** A SQLAlchemy engine, known by a creation number and its URL. */
  datatype Engine = Engine(id: nat, url: string)

  /** `sessionmaker(autocommit=False, autoflush=False, bind=engine)`. */
  datatype SessionMaker = SessionMaker(engine: Engine, autocommit: bool, autoflush: bool)

  /** `create_database_engine(db_path)`; `id` tells engines apart. */
  function CreateDatabaseEngine(dbPath: string, id: nat, cwd: string, home: string): (e: Engine)
    ensures e.id == id && e.url == GetDatabaseUrl(dbPath, cwd, home) && StartsWith(e.url, SqlitePrefix)
  {
    Engine(id, GetDatabaseUrl(dbPath, cwd, home))
  }

  /** `create_session_maker(engine)`: bound to `engine`, no autocommit, no autoflush. */
  function CreateSessionMaker(engine: Engine): (m: SessionMaker)
    ensures m.engine == engine && !m.autocommit && !m.autoflush
  {
    SessionMaker(engine, false, false)
  }

  /** A table in the store an engine opens. A store that cannot be written
      makes every commit fail. */
  class Store<R> {
    var rows: seq<R>
    const writable: bool

    constructor (rows: seq<R>, writable: bool)
      ensures this.rows == rows && this.writable == writable
    {
      this.rows := rows;
      this.writable := writable;
    }
  }

  /** A session: rows added but not yet committed, and how often it was
      committed and closed. */
  class Session<R> {
    const engine: Engine
    const store: Store<R>
    var pending: seq<R>
    var commitCount: nat
    var closeCount: nat

    /** `session_maker()`: a new, open session with nothing pending. */
    constructor (maker: SessionMaker, store: Store<R>)
      ensures engine == maker.engine && this.store == store
      ensures pending == [] && commitCount == 0 && closeCount == 0
    {
      engine := maker.engine;
      this.store := store;
      pending := [];
      commitCount := 0;
      closeCount := 0;
    }

    /** `session.add(row)`. */
    method Add(row: R)
      modifies this
      ensures pending == old(pending) + [row]
      ensures commitCount == old(commitCount) && closeCount == old(closeCount)
    {
      pending := pending + [row];
    }

    /** `session.commit()`: the pending rows reach the table, in order; on a
        store that cannot be written it raises and nothing changes. */
    method Commit() returns (outcome: Outcome)
      modifies this, store
      ensures outcome.Pass? <==> store.writable
      ensures store.writable ==> store.rows == old(store.rows) + old(pending) && pending == []
      ensures !store.writable ==> store.rows == old(store.rows) && pending == old(pending)
      ensures outcome.Fail? ==> outcome.error == Other("OperationalError", "attempt to write a readonly database")
      ensures commitCount == old(commitCount) + 1 && closeCount == old(closeCount)
    {
      commitCount := commitCount + 1;
      if store.writable {
        store.rows := store.rows + pending;
        pending := [];
        outcome := Pass;
      } else {
        outcome := Fail(Other("OperationalError", "attempt to write a readonly database"));
      }
    }

    /** `session.close()`: what is still pending is discarded. */
    method Close()
      modifies this
      ensures closeCount == old(closeCount) + 1 && pending == []
      ensures commitCount == old(commitCount)
    {
      closeCount := closeCount + 1;
      pending := [];
    }
  }

  /** `get_database_session(session_maker)` driven to its end: the generator
      opens one session, yields it to the request handler, and closes it in
      `finally` whichever way the handler ended; the handler's ending is
      passed through unchanged. */
  method GetDatabaseSession<R>(maker: SessionMaker, store: Store<R>, handlerExit: Outcome)
    returns (db: Session<R>, exit: Outcome)
    ensures fresh(db) && db.engine == maker.engine && db.store == store
    ensures db.closeCount == 1 && db.commitCount == 0 && db.pending == []
    ensures exit == handlerExit
  {
    db := new Session(maker, store);
    // yield db: the handler runs here and ends with handlerExit
    db.Close();
    exit := handlerExit;
  }
}

=== FILE: category_schema.dfy ===
/** common_club/schemas/category.py: the validation rules of the category
    request and response shapes. The `pattern` constraints are anchored at
    both ends and match whole strings, so each is a membership test. */
module CategorySchemas {
  import opened Common
  import opened Fields
  import opened SharedCategoryModel

  const CategoryTypes: set<string> := {"income", "expense", "general"}
  const AppScopes: set<string> := {"coin", "care", "career", "campfire", "all"}

  /** `min_length=1, max_length=100`. */
  predicate ValidName(name: string) {
    1 <= |name| <= 100
  }

  /** `pattern="^(income|expense|general)$"`. */
  predicate ValidType(categoryType: string) {
    categoryType in CategoryTypes
  }

  /** `pattern="^(coin|care|career|campfire|all)$"`. */
  predicate ValidScope(appScope: string) {
    appScope in AppScopes
  }

  /** `CategoryBase` (and `CategoryCreate`, which adds nothing). */
  datatype CategoryBase = CategoryBase(
    name: string,
    categoryType: string,
    icon: Option<string>,
    appScope: string,
    parentId: Option<int>)

  predicate CategoryBaseValid(c: CategoryBase) {
    ValidName(c.name) && ValidType(c.categoryType) && ValidScope(c.appScope)
  }

  /** What a body must hold to be a valid `CategoryBase`, field by field. */
  predicate BodyIsCategoryBase(body: Payload) {
    && "name" in body && body["name"].Str? && ValidName(body["name"].s)
    && "type" in body && body["type"].Str? && ValidType(body["type"].s)
    && "app_scope" in body && body["app_scope"].Str? && ValidScope(body["app_scope"].s)
    && (Get(body, "icon") == Null || Get(body, "icon").Str?)
    && (Get(body, "parent_id") == Null || Get(body, "parent_id").Int?)
  }

  /** Validating a create request: accepted exactly when every field meets
      its constraint; the record then holds the body's values, and a missing
      or null `icon` or `parent_id` becomes `None`. */
  function ParseCategoryBase(body: Payload): (r: Option<CategoryBase>)
    ensures r.Some? <==> BodyIsCategoryBase(body)
    ensures r.Some? ==> CategoryBaseValid(r.value)
    ensures r.Some? ==> r.value.name == body["name"].s && r.value.categoryType == body["type"].s
                        && r.value.appScope == body["app_scope"].s
    ensures r.Some? ==> (r.value.icon.None? <==> Get(body, "icon") == Null)
                        && (r.value.parentId.None? <==> Get(body, "parent_id") == Null)
    ensures r.Some? && Get(body, "icon").Str? ==> r.value.icon == Some(Get(body, "icon").s)
    ensures r.Some? && Get(body, "parent_id").Int? ==> r.value.parentId == Some(Get(body, "parent_id").i)
  {
    match (RequiredStr(body, "name"), RequiredStr(body, "type"), RequiredStr(body, "app_scope"),
           OptionalStr(body, "icon"), OptionalInt(body, "parent_id"))
    case (Some(name), Some(categoryType), Some(appScope), Some(icon), Some(parentId)) =>
      if ValidName(name) && ValidType(categoryType) && ValidScope(appScope)
      then Some(CategoryBase(name, categoryType, icon, appScope, parentId))
      else None
    case _ => None
  }

  /** A create request that gives only the three required fields is valid
      (when they are) and has no icon and no parent. */
  lemma OptionalFieldsDefaultToNone(name: string, categoryType: string, appScope: string)
    requires ValidName(name) && ValidType(categoryType) && ValidScope(appScope)
    ensures ParseCategoryBase(map["name" := Str(name), "type" := Str(categoryType), "app_scope" := Str(appScope)])
            == Some(CategoryBase(name, categoryType, None, appScope, None))
  {
    var body := map["name" := Str(name), "type" := Str(categoryType), "app_scope" := Str(appScope)];
    assert "icon" !in body && "parent_id" !in body;
  }

  /** A type such as "Income" or "income " is rejected: the pattern admits
      the three words and nothing else. */
  lemma TypeMustMatchExactly(body: Payload)
    requires "type" in body && body["type"].Str? && body["type"].s !in CategoryTypes
    ensures ParseCategoryBase(body).None?
  {
  }

  datatype CategoryUpdate = CategoryUpdate(
    name: Option<string>,
    categoryType: Option<string>,
    icon: Option<string>,
    parentId: Option<int>)

  /** `CategoryUpdate`: every field may be missing or null, but a `name` or
      `type` that is given must meet the create constraints. It has no
      `app_scope` and no `is_predefined` field. */
  function ParseCategoryUpdate(body: Payload): (r: Option<CategoryUpdate>)
    ensures r.Some? <==>
              && (Get(body, "name") == Null || (Get(body, "name").Str? && ValidName(Get(body, "name").s)))
              && (Get(body, "type") == Null || (Get(body, "type").Str? && ValidType(Get(body, "type").s)))
              && (Get(body, "icon") == Null || Get(body, "icon").Str?)
              && (Get(body, "parent_id") == Null || Get(body, "parent_id").Int?)
    ensures r.Some? && r.value.name.Some? ==> ValidName(r.value.name.value)
    ensures r.Some? && r.value.categoryType.Some? ==> ValidType(r.value.categoryType.value)
    ensures r.Some? ==> (r.value.name.None? <==> Get(body, "name") == Null)
                        && (r.value.categoryType.None? <==> Get(body, "type") == Null)
                        && (r.value.icon.None? <==> Get(body, "icon") == Null)
                        && (r.value.parentId.None? <==> Get(body, "parent_id") == Null)
    ensures r.Some? && Get(body, "name").Str? ==> r.value.name == Some(Get(body, "name").s)
    ensures r.Some? && Get(body, "type").Str? ==> r.value.categoryType == Some(Get(body, "type").s)
    ensures r.Some? && Get(body, "icon").Str? ==> r.value.icon == Some(Get(body, "icon").s)
    ensures r.Some? && Get(body, "parent_id").Int? ==> r.value.parentId == Some(Get(body, "parent_id").i)
  {
    match (OptionalStr(body, "name"), OptionalStr(body, "type"), OptionalStr(body, "icon"),
           OptionalInt(body, "parent_id"))
    case (Some(name), Some(categoryType), Some(icon), Some(parentId)) =>
      if (name.None? || ValidName(name.value)) && (categoryType.None? || ValidType(categoryType.value))
      then Some(CategoryUpdate(name, categoryType, icon, parentId))
      else None
    case _ => None
  }

  /** The empty update is valid and changes nothing. */
  lemma EmptyUpdateIsValid()
    ensures ParseCategoryUpdate(map[]) == Some(CategoryUpdate(None, None, None, None))
  {
  }

  /** An update cannot carry `app_scope` or `is_predefined`: whatever the
      body says about them, the validated update is the same as without them. */
  lemma UpdateIgnoresScopeAndFlag(body: Payload)
    ensures ParseCategoryUpdate(body) == ParseCategoryUpdate(body - {"app_scope", "is_predefined"})
  {
    var trimmed := body - {"app_scope", "is_predefined"};
    assert Get(trimmed, "name") == Get(body, "name");
    assert Get(trimmed, "type") == Get(body, "type");
    assert Get(trimmed, "icon") == Get(body, "icon");
    assert Get(trimmed, "parent_id") == Get(body, "parent_id");
  }

  /** `CategoryResponse`: the base fields plus `id`, `is_predefined`, an
      optional `user_id` and an optional `created_at`. */
  datatype CategoryResponse = CategoryResponse(
    base: CategoryBase,
    id: int,
    isPredefined: bool,
    userId: Option<int>,
    createdAt: Option<int>)

  /** `CategoryResponse.model_validate(record)` (`from_attributes`): succeeds
      exactly when the record has an id and its name, type and scope meet the
      base constraints; the response then copies the record's columns. */
  function CategoryResponseOf(c: SharedCategory): (r: Option<CategoryResponse>)
    ensures r.Some? <==> c.id.Some? && ValidName(c.name) && ValidType(c.categoryType) && ValidScope(c.appScope)
    ensures r.Some? ==> r.value.base == CategoryBase(c.name, c.categoryType, c.icon, c.appScope, c.parentId)
                        && r.value.id == c.id.value && r.value.isPredefined == c.isPredefined
                        && r.value.userId == c.userId && r.value.createdAt == c.createdAt
  {
    var base := CategoryBase(c.name, c.categoryType, c.icon, c.appScope, c.parentId);
    if c.id.Some? && CategoryBaseValid(base)
    then Some(CategoryResponse(base, c.id.value, c.isPredefined, c.userId, c.createdAt))
    else None
  }
}

=== FILE: common.dfy ===
/** Types shared by the whole model: optional values, results, the JSON-like
    values that travel in token payloads, request bodies and `to_dict`
    projections, and the Python exceptions the core raises or maps. */
module Common {

  datatype Option<+T> = None | Some(value: T)

  datatype Result<+T, +E> = Ok(value: T) | Err(error: E)

  /** A value stored in a Python dict built by the core: JSON scalars, the
      ISO-8601 text of a datetime (`isoformat()`, whose text is not modelled),
      and any other object, named by its Python type. */
  datatype Value =
    | Null
    | Bool(b: bool)
    | Int(i: int)
    | Str(s: string)
    | IsoText(seconds: int)
    | Compound(typeName: string)

  /** A dict with string keys: a token payload, a request body, a projection. */
  type Payload = map<string, Value>

  /** `d.get(key)`: a missing key reads as `None`. */
  function Get(d: Payload, key: string): (v: Value)
    ensures key !in d ==> v == Null
    ensures key in d ==> v == d[key]
  {
    if key in d then d[key] else Null
  }

  /** The exceptions the core raises, maps or lets through. `Other` stands for
      any other exception class, named by its class name. */
  datatype Exc =
    | ValueError(message: string)
    | TypeError(message: string)
    | Other(className: string, message: string)

  /** How a piece of code ends: normally, or by raising. */
  datatype Outcome = Pass | Fail(error: Exc)

  function OptStr(o: Option<string>): (v: Value)
    ensures o.None? <==> v == Null
    ensures o.Some? ==> v == Str(o.value)
  {
    if o.Some? then Str(o.value) else Null
  }

  function OptInt(o: Option<int>): (v: Value)
    ensures o.None? <==> v == Null
    ensures o.Some? ==> v == Int(o.value)
  {
    if o.Some? then Int(o.value) else Null
  }

  /** `x.isoformat() if x else None` for an optional datetime (a datetime is
      always truthy). */
  function OptIso(o: Option<int>): (v: Value)
    ensures o.None? <==> v == Null
    ensures o.Some? ==> v == IsoText(o.value)
  {
    if o.Some? then IsoText(o.value) else Null
  }
}

=== FILE: connection.dfy ===
/** common_club/database/connection.py: the registry of the two database
    slots, the shared "common" store and the app-specific store. Each slot
    holds an engine and the session maker bound to it, or nothing; `init_*`
    fills (or refills) a slot, and the getters fill it only when it is empty.
    The four module globals become fields of one object, the process
    environment a map, and every engine created gets the next number of a
    counter, so that "no new engine was created" can be stated. */
module Connection {
  import opened Common
  import opened Base

  const CommonDbPathVar := "COMMON_DB_PATH"
  const DefaultCommonDbPath := "../common-club/common-club.db"
  const AppDbPathVar := "APP_DB_PATH"
  const MissingAppDbPath :=
    "APP_DB_PATH environment variable must be set. Example: APP_DB_PATH=./coin-club.db"

  /** The path `init_common_db(db_path)` opens: the argument when given, else
      `COMMON_DB_PATH` (even when empty), else the relative default. */
  function CommonDbPath(dbPath: Option<string>, env: map<string, string>): (path: string)
    ensures dbPath.Some? ==> path == dbPath.value
    ensures dbPath.None? && CommonDbPathVar in env ==> path == env[CommonDbPathVar]
    ensures dbPath.None? && CommonDbPathVar !in env ==> path == DefaultCommonDbPath
  {
    match dbPath
    case Some(p) => p
    case None => if CommonDbPathVar in env then env[CommonDbPathVar] else DefaultCommonDbPath
  }

  /** The path `init_app_db(db_path)` opens: the argument when given, else a
      non-empty `APP_DB_PATH`; there is no default, so otherwise `ValueError`. */
  function AppDbPath(dbPath: Option<string>, env: map<string, string>): (r: Result<string, Exc>)
    ensures dbPath.Some? ==> r == Ok(dbPath.value)
    ensures dbPath.None? ==>
              (r.Ok? <==> AppDbPathVar in env && env[AppDbPathVar] != "")
    ensures dbPath.None? && r.Ok? ==> r.value == env[AppDbPathVar]
    ensures r.Err? ==> r.error == ValueError(MissingAppDbPath)
  {
    match dbPath
    case Some(p) => Ok(p)
    case None =>
      if AppDbPathVar in env && env[AppDbPathVar] != "" then Ok(env[AppDbPathVar])
      else Err(ValueError(MissingAppDbPath))
  }

  class Registry {
    const env: map<string, string>
    const cwd: string
    const home: string
    /** How many engines have been created; the next engine's id. */
    var created: nat
    var commonEngine: Option<Engine>
    var commonSessionMaker: Option<SessionMaker>
    var appEngine: Option<Engine>
    var appSessionMaker: Option<SessionMaker>

    /** Each slot is empty or holds an engine created earlier together with
        the session maker bound to it. */
    ghost predicate Valid()
      reads this
    {
      && SlotValid(commonEngine, commonSessionMaker)
      && SlotValid(appEngine, appSessionMaker)
    }

    ghost predicate SlotValid(engine: Option<Engine>, maker: Option<SessionMaker>)
      reads this
    {
      && (engine.None? <==> maker.None?)
      && (engine.Some? ==> maker.value == CreateSessionMaker(engine.value) && engine.value.id < created)
    }

    /** The module as imported: all four globals `None`. */
    constructor (env: map<string, string>, cwd: string, home: string)
      ensures Valid()
      ensures this.env == env && this.cwd == cwd && this.home == home
      ensures created == 0
      ensures commonEngine.None? && commonSessionMaker.None? && appEngine.None? && appSessionMaker.None?
    {
      this.env := env;
      this.cwd := cwd;
      this.home := home;
      created := 0;
      commonEngine, commonSessionMaker := None, None;
      appEngine, appSessionMaker := None, None;
    }

    method NewEngine(path: string) returns (engine: Engine)
      modifies this`created
      ensures engine == CreateDatabaseEngine(path, old(created), cwd, home)
      ensures created == old(created) + 1
    {
      engine := CreateDatabaseEngine(path, created, cwd, home);
      created := created + 1;
    }

    /** `init_common_db(db_path)`: a fresh engine for the resolved path
        replaces whatever the common slot held, together with its session
        maker; the app slot is not touched. */
    method InitCommonDb(dbPath: Option<string>) returns (engine: Engine)
      requires Valid()
      modifies this
      ensures Valid()
      ensures engine == CreateDatabaseEngine(CommonDbPath(dbPath, env), old(created), cwd, home)
      ensures created == old(created) + 1
      ensures commonEngine == Some(engine) && commonSessionMaker == Some(CreateSessionMaker(engine))
      ensures appEngine == old(appEngine) && appSessionMaker == old(appSessionMaker)
    {
      var path := CommonDbPath(dbPath, env);
      engine := NewEngine(path);
      commonEngine := Some(engine);
      commonSessionMaker := Some(CreateSessionMaker(engine));
    }

    /** `init_app_db(db_path)`: like `InitCommonDb` for the app slot, except
        that with no argument and no non-empty `APP_DB_PATH` it raises
        `ValueError` before any engine exists, changing nothing. */
    method InitAppDb(dbPath: Option<string>) returns (r: Result<Engine, Exc>)
      requires Valid()
      modifies this
      ensures Valid()
      ensures r.Err? <==> AppDbPath(dbPath, env).Err?
      ensures r.Err? ==> r.error == ValueError(MissingAppDbPath) && created == old(created)
                         && appEngine == old(appEngine) && appSessionMaker == old(appSessionMaker)
      ensures r.Ok? ==> r.value == CreateDatabaseEngine(AppDbPath(dbPath, env).value, old(created), cwd, home)
                        && created == old(created) + 1
                        && appEngine == Some(r.value) && appSessionMaker == Some(CreateSessionMaker(r.value))
      ensures commonEngine == old(commonEngine) && commonSessionMaker == old(commonSessionMaker)
    {
      match AppDbPath(dbPath, env)
      case Err(e) =>
        r := Err(e);
      case Ok(path) =>
        var engine := NewEngine(path);
        appEngine := Some(engine);
        appSessionMaker := Some(CreateSessionMaker(engine));
        r := Ok(engine);
    }

    /** `get_common_db()`: the session maker the yielded session comes from,
        initialising the common slot with the default resolution only when
        it is empty. */
    method GetCommonDb() returns (maker: SessionMaker)
      requires Valid()
      modifies this
      ensures Valid()
      ensures old(commonSessionMaker).Some? ==>
                maker == old(commonSessionMaker).value && created == old(created)
                && commonEngine == old(commonEngine) && commonSessionMaker == old(commonSessionMaker)
      ensures old(commonSessionMaker).None? ==>
                maker == CreateSessionMaker(CreateDatabaseEngine(CommonDbPath(None, env), old(created), cwd, home))
                && created == old(created) + 1
                && commonEngine == Some(maker.engine) && commonSessionMaker == Some(maker)
      ensures appEngine == old(appEngine) && appSessionMaker == old(appSessionMaker)
    {
      if commonSessionMaker.None? {
        var _ := InitCommonDb(None);
      }
      maker := commonSessionMaker.value;
    }

    /** `get_app_db()`: as `GetCommonDb` for the app slot; when the slot is
        empty and `APP_DB_PATH` is not set the `ValueError` of `init_app_db`
        propagates and nothing changes. */
    method GetAppDb() returns (r: Result<SessionMaker, Exc>)
      requires Valid()
      modifies this
      ensures Valid()
      ensures old(appSessionMaker).Some? ==>
                r == Ok(old(appSessionMaker).value) && created == old(created)
                && appEngine == old(appEngine) && appSessionMaker == old(appSessionMaker)
      ensures old(appSessionMaker).None? && AppDbPath(None, env).Err? ==>
                r == Err(ValueError(MissingAppDbPath)) && created == old(created)
                && appEngine.None? && appSessionMaker.None?
      ensures old(appSessionMaker).None? && AppDbPath(None, env).Ok? ==>
                r == Ok(CreateSessionMaker(CreateDatabaseEngine(AppDbPath(None, env).value, old(created), cwd, home)))
                && created == old(created) + 1
                && appEngine == Some(r.value.engine) && appSessionMaker == Some(r.value)
      ensures commonEngine == old(commonEngine) && commonSessionMaker == old(commonSessionMaker)
    {
      if appSessionMaker.None? {
        var init := InitAppDb(None);
        if init.Err? {
          return Err(init.error);
        }
      }
      r := Ok(appSessionMaker.value);
    }

    /** `get_common_engine()`: the common engine, initialising the slot only
        when it is empty. */
    method GetCommonEngine() returns (engine: Engine)
      requires Valid()
      modifies this
      ensures Valid()
      ensures old(commonEngine).Some? ==>
                engine == old(commonEngine).value && created == old(created)
                && commonEngine == old(commonEngine) && commonSessionMaker == old(commonSessionMaker)
      ensures old(commonEngine).None? ==>
                engine == CreateDatabaseEngine(CommonDbPath(None, env), old(created), cwd, home)
                && created == old(created) + 1
                && commonEngine == Some(engine) && commonSessionMaker == Some(CreateSessionMaker(engine))
      ensures appEngine == old(appEngine) && appSessionMaker == old(appSessionMaker)
    {
      if commonEngine.None? {
        var _ := InitCommonDb(None);
      }
      engine := commonEngine.value;
    }

    /** `get_app_engine()`: the app engine, initialising the slot only when it
        is empty; with no `APP_DB_PATH` the `ValueError` propagates. */
    method GetAppEngine() returns (r: Result<Engine, Exc>)
      requires Valid()
      modifies this
      ensures Valid()
      ensures old(appEngine).Some? ==>
                r == Ok(old(appEngine).value) && created == old(created)
                && appEngine == old(appEngine) && appSessionMaker == old(appSessionMaker)
      ensures old(appEngine).None? && AppDbPath(None, env).Err? ==>
                r == Err(ValueError(MissingAppDbPath)) && created == old(created)
                && appEngine.None? && appSessionMaker.None?
      ensures old(appEngine).None? && AppDbPath(None, env).Ok? ==>
                r == Ok(CreateDatabaseEngine(AppDbPath(None, env).value, old(created), cwd, home))
                && created == old(created) + 1
                && appEngine == Some(r.value) && appSessionMaker == Some(CreateSessionMaker(r.value))
      ensures commonEngine == old(commonEngine) && commonSessionMaker == old(commonSessionMaker)
    {
      if appEngine.None? {
        var init := InitAppDb(None);
        if init.Err? {
          return Err(init.error);
        }
      }
      r := Ok(appEngine.value);
    }
  }

  /** Two session requests on a fresh registry create one engine between
      them: both sessions come from the same session maker and engine. */
  method CommonSessionsShareEngine(env: map<string, string>, cwd: string, home: string)
    returns (first: SessionMaker, second: SessionMaker, enginesCreated: nat)
    ensures first == second && enginesCreated == 1
    ensures first.engine == CreateDatabaseEngine(CommonDbPath(None, env), 0, cwd, home)
  {
    var registry := new Registry(env, cwd, home);
    first := registry.GetCommonDb();
    second := registry.GetCommonDb();
    enginesCreated := registry.created;
  }

  /** With no argument and no `APP_DB_PATH`, asking a fresh registry for an
      app session fails with the configuration error before any engine is
      created, and leaves both slots empty. */
  method AppSessionNeedsConfiguredPath(env: map<string, string>, cwd: string, home: string)
    returns (r: Result<SessionMaker, Exc>, enginesCreated: nat, commonSlotEmpty: bool)
    requires AppDbPathVar !in env || env[AppDbPathVar] == ""
    ensures r == Err(ValueError(MissingAppDbPath))
    ensures enginesCreated == 0 && commonSlotEmpty
  {
    var registry := new Registry(env, cwd, home);
    r := registry.GetAppDb();
    enginesCreated := registry.created;
    commonSlotEmpty := registry.commonEngine.None?;
  }

  /** Re-initialising is not a no-op: the second `init_common_db` installs a
      new engine, distinct from the first even for the same path. */
  method ReinitReplacesEngine(env: map<string, string>, cwd: string, home: string, dbPath: Option<string>)
    returns (first: Engine, second: Engine, current: Engine)
    ensures first != second && current == second
    ensures first.url == second.url
  {
    var registry := new Registry(env, cwd, home);
    first := registry.InitCommonDb(dbPath);
    second := registry.InitCommonDb(dbPath);
    current := registry.GetCommonEngine();
  }
}

=== FILE: dependencies.dfy ===
/** The identity extractor of common_club/auth/dependencies.py. Each request
    dependency is a total function from the outcome of `verify_token` to a
    tagged result: the identity, a 401 `HTTPException` with its detail and
    optional headers, or an exception that the dependency lets through. */
module Dependencies {
  import opened Common
  import PyInt
  import JwtHandler

  datatype Identity<+T> =
    | Authenticated(value: T)
    | Unauthorized(status: int, detail: string, headers: Option<map<string, string>>)
    | Propagated(error: Exc)

  const Http401Unauthorized := 401
  const BearerChallenge: map<string, string> := map["WWW-Authenticate" := "Bearer"]
  const CouldNotValidate := "Could not validate credentials"
  const InvalidCredentials := "Invalid authentication credentials"

  /** `get_current_user_id`: `int(payload["sub"])` on success. A `ValueError`
      (from verification or from `int()`) keeps its message as the detail;
      every other failure reads "Could not validate credentials". Every 401
      carries the Bearer challenge, and nothing escapes unnormalised. The
      `user_id is None` branch of the source cannot be taken, since `int()`
      never returns `None`, so it has no counterpart here. */
  function GetCurrentUserId(verified: Result<Payload, Exc>): (r: Identity<int>)
    ensures !r.Propagated?
    ensures r.Unauthorized? ==> r.status == Http401Unauthorized && r.headers == Some(BearerChallenge)
    ensures r.Authenticated? <==> verified.Ok? && PyInt.ToInt(Get(verified.value, "sub")).Ok?
    ensures r.Authenticated? ==> r.value == PyInt.ToInt(Get(verified.value, "sub")).value
    ensures verified.Err? && verified.error.ValueError? ==> r.detail == verified.error.message
    ensures verified.Err? && !verified.error.ValueError? ==> r.detail == CouldNotValidate
    ensures verified.Ok? && PyInt.ToInt(Get(verified.value, "sub")).Err? ==>
              r.detail == (if PyInt.ToInt(Get(verified.value, "sub")).error.ValueError?
                           then PyInt.ToInt(Get(verified.value, "sub")).error.message
                           else CouldNotValidate)
  {
    match verified
    case Err(ValueError(message)) =>
      Unauthorized(Http401Unauthorized, message, Some(BearerChallenge))
    case Err(_) =>
      Unauthorized(Http401Unauthorized, CouldNotValidate, Some(BearerChallenge))
    case Ok(payload) =>
      match PyInt.ToInt(Get(payload, "sub"))
      case Ok(userId) => Authenticated(userId)
      case Err(ValueError(message)) =>
        Unauthorized(Http401Unauthorized, message, Some(BearerChallenge))
      case Err(_) =>
        Unauthorized(Http401Unauthorized, CouldNotValidate, Some(BearerChallenge))
  }

  /** `get_current_user_email`: the `email` claim whenever it is present and
      not null. A missing claim gives "Invalid authentication credentials"; a
      `ValueError` keeps its message; no 401 here carries a header, and an
      exception of any other class propagates unchanged. */
  function GetCurrentUserEmail(verified: Result<Payload, Exc>): (r: Identity<Value>)
    ensures r.Unauthorized? ==> r.status == Http401Unauthorized && r.headers.None?
    ensures r.Authenticated? <==> verified.Ok? && Get(verified.value, "email") != Null
    ensures r.Authenticated? ==> r.value == Get(verified.value, "email")
    ensures r.Propagated? <==> verified.Err? && !verified.error.ValueError?
    ensures r.Propagated? ==> r.error == verified.error
    ensures verified.Ok? && !r.Authenticated? ==> r.detail == InvalidCredentials
    ensures verified.Err? && verified.error.ValueError? ==> r.detail == verified.error.message
  {
    match verified
    case Err(ValueError(message)) => Unauthorized(Http401Unauthorized, message, None)
    case Err(e) => Propagated(e)
    case Ok(payload) =>
      if Get(payload, "email") == Null then Unauthorized(Http401Unauthorized, InvalidCredentials, None)
      else Authenticated(Get(payload, "email"))
  }

  /** `get_current_user_id` applied to a bearer credential: it never lets an
      exception through, and it authenticates exactly when
      `get_user_id_from_token` would succeed on the same token. */
  function CurrentUserId(decode: JwtHandler.Decoder, secretKey: string, bearer: string): (r: Identity<int>)
    ensures !r.Propagated?
    ensures r.Authenticated? <==> JwtHandler.GetUserIdFromToken(decode, secretKey, bearer).Ok?
  {
    GetCurrentUserId(JwtHandler.VerifyToken(decode, secretKey, bearer))
  }

  /** `get_current_user_email` applied to a bearer credential: it
      authenticates exactly when the token verifies and carries an `email`
      claim, and lets through only what `verify_token` raised other than a
      `ValueError`. */
  function CurrentUserEmail(decode: JwtHandler.Decoder, secretKey: string, bearer: string): (r: Identity<Value>)
    ensures r.Authenticated? <==> JwtHandler.VerifyToken(decode, secretKey, bearer).Ok?
                                  && Get(JwtHandler.VerifyToken(decode, secretKey, bearer).value, "email") != Null
    ensures r.Propagated? ==> JwtHandler.VerifyToken(decode, secretKey, bearer) == Err(r.error) && !r.error.ValueError?
  {
    GetCurrentUserEmail(JwtHandler.VerifyToken(decode, secretKey, bearer))
  }

  /** A token issued for `userId` and `email` and presented no later than
      its expiry time authenticates as exactly that user id and that email. */
  lemma IssuedTokenAuthenticates(encode: JwtHandler.Encoder, decode: JwtHandler.Decoder, at: int, secretKey: string,
                                 userId: int, email: string, now: int, expiresDelta: Option<int>)
    requires JwtHandler.DecodeInvertsEncode(encode, decode, at) && at <= JwtHandler.ExpiresAt(now, expiresDelta)
    ensures var token := JwtHandler.CreateAccessToken(encode, secretKey, userId, email, now, expiresDelta);
            CurrentUserId(decode, secretKey, token) == Authenticated(userId)
            && CurrentUserEmail(decode, secretKey, token) == Authenticated(Str(email))
  {
    JwtHandler.TokenRoundTrip(encode, decode, at, secretKey, userId, email, now, expiresDelta);
  }

  /** A token presented after its expiry time gets a 401 from both
      dependencies, with the library's expiry message as the detail. */
  lemma ExpiredTokenUnauthorized(encode: JwtHandler.Encoder, decode: JwtHandler.Decoder, at: int, secretKey: string,
                                 userId: int, email: string, now: int, expiresDelta: Option<int>)
    requires JwtHandler.DecodeInvertsEncode(encode, decode, at) && at > JwtHandler.ExpiresAt(now, expiresDelta)
    ensures var token := JwtHandler.CreateAccessToken(encode, secretKey, userId, email, now, expiresDelta);
            var detail := "Invalid token: " + JwtHandler.ExpiredMessage;
            CurrentUserId(decode, secretKey, token) == Unauthorized(Http401Unauthorized, detail, Some(BearerChallenge))
            && CurrentUserEmail(decode, secretKey, token) == Unauthorized(Http401Unauthorized, detail, None)
  {
    JwtHandler.ExpiredTokenRejected(encode, decode, at, secretKey, userId, email, now, expiresDelta);
  }

  /** Whatever the decoder returns, the user id dependency either
      authenticates as the number `get_user_id_from_token` computes, or
      answers 401 with the Bearer challenge exactly when that function fails;
      for a `ValueError` the two agree on the message. */
  lemma UserIdAgreesWithTokenHelper(decode: JwtHandler.Decoder, secretKey: string, bearer: string)
    ensures var helper := JwtHandler.GetUserIdFromToken(decode, secretKey, bearer);
            var id := CurrentUserId(decode, secretKey, bearer);
            && (helper.Ok? <==> id.Authenticated?)
            && (helper.Ok? ==> id.value == helper.value)
            && (helper.Err? ==> id.headers == Some(BearerChallenge))
            && (helper.Err? && helper.error.ValueError? ==> id.detail == helper.error.message)
  {
    var verified := JwtHandler.VerifyToken(decode, secretKey, bearer);
    if verified.Ok? {
      assert "sub" in verified.value;
    }
  }

  /** The asymmetry between the two dependencies. On a `ValueError` both
      answer 401 with the same detail, but only the user id dependency adds
      the challenge header; any other exception becomes a 401 there but
      escapes the email dependency unchanged. */
  lemma ErrorNormalisationDiffers(e: Exc)
    ensures e.ValueError? ==>
              && GetCurrentUserId(Err(e)) == Unauthorized(401, e.message, Some(BearerChallenge))
              && GetCurrentUserEmail(Err(e)) == Unauthorized(401, e.message, None)
    ensures !e.ValueError? ==>
              && GetCurrentUserId(Err(e)) == Unauthorized(401, CouldNotValidate, Some(BearerChallenge))
              && GetCurrentUserEmail(Err(e)) == Propagated(e)
  {
  }
}

=== FILE: fields.dfy ===
/** Reading one field of a request body the way a pydantic model does for
    the field kinds the schemas use. A required field must be present and of
    its type; an `Optional[...] = None` field may be missing or null, both of
    which give `None`. The outer `Option` of a result is the verdict: `None`
    means the field fails validation. */
module Fields {
  import opened Common

  function RequiredStr(body: Payload, key: string): (r: Option<string>)
    ensures r.Some? <==> key in body && body[key].Str?
    ensures r.Some? ==> r.value == body[key].s
  {
    if key in body && body[key].Str? then Some(body[key].s) else None
  }

  function RequiredInt(body: Payload, key: string): (r: Option<int>)
    ensures r.Some? <==> key in body && body[key].Int?
    ensures r.Some? ==> r.value == body[key].i
  {
    if key in body && body[key].Int? then Some(body[key].i) else None
  }

  function RequiredBool(body: Payload, key: string): (r: Option<bool>)
    ensures r.Some? <==> key in body && body[key].Bool?
    ensures r.Some? ==> r.value == body[key].b
  {
    if key in body && body[key].Bool? then Some(body[key].b) else None
  }

  function OptionalStr(body: Payload, key: string): (r: Option<Option<string>>)
    ensures r.Some? <==> Get(body, key) == Null || Get(body, key).Str?
    ensures r == Some(None) <==> Get(body, key) == Null
    ensures Get(body, key).Str? ==> r == Some(Some(Get(body, key).s))
  {
    match Get(body, key)
    case Null => Some(None)
    case Str(s) => Some(Some(s))
    case _ => None
  }

  function OptionalInt(body: Payload, key: string): (r: Option<Option<int>>)
    ensures r.Some? <==> Get(body, key) == Null || Get(body, key).Int?
    ensures r == Some(None) <==> Get(body, key) == Null
    ensures Get(body, key).Int? ==> r == Some(Some(Get(body, key).i))
  {
    match Get(body, key)
    case Null => Some(None)
    case Int(i) => Some(Some(i))
    case _ => None
  }
}

=== FILE: init_db.dfy ===
/** common_club/database/init_db.py: the predefined categories and the
    idempotent seeding of the `shared_categories` table, and the database
    initialisation that opens the common store and seeds it. */
module InitDb {
  import opened Common
  import opened Base
  import opened Connection
  import opened SharedCategoryModel
  import CategorySchemas

  /** One entry of `PREDEFINED_CATEGORIES`. */
  datatype Entry = Entry(name: string, categoryType: string, icon: string, appScope: string)

  /** Income categories; all but one are shared by all apps. */
  const IncomeCategories: seq<Entry> := [
    Entry("Salary", "income", "mdi-cash", "all"),
    Entry("Bonus", "income", "mdi-gift", "all"),
    Entry("Freelance", "income", "mdi-briefcase", "all"),
    Entry("Investment Income", "income", "mdi-trending-up", "coin"),
    Entry("Other Income", "income", "mdi-cash-plus", "all")
  ]

  /** Expense categories: utilities. */
  const UtilityCategories: seq<Entry> := [
    Entry("Utilities", "expense", "mdi-lightbulb", "coin"),
    Entry("Electricity", "expense", "mdi-flash", "coin"),
    Entry("Water", "expense", "mdi-water", "coin"),
    Entry("Gas", "expense", "mdi-fire", "coin"),
    Entry("Internet", "expense", "mdi-wifi", "coin"),
    Entry("Phone", "expense", "mdi-phone", "coin")
  ]

  /** Expense categories: housing. */
  const HousingCategories: seq<Entry> := [
    Entry("Housing", "expense", "mdi-home", "coin"),
    Entry("Rent", "expense", "mdi-home-account", "coin"),
    Entry("Mortgage", "expense", "mdi-home-city", "coin"),
    Entry("Home Insurance", "expense", "mdi-shield-home", "coin"),
    Entry("Property Tax", "expense", "mdi-home-currency-usd", "coin"),
    Entry("Maintenance", "expense", "mdi-tools", "coin")
  ]

  /** Expense categories: transportation. */
  const TransportationCategories: seq<Entry> := [
    Entry("Transportation", "expense", "mdi-car", "coin"),
    Entry("Fuel", "expense", "mdi-gas-station", "coin"),
    Entry("Public Transit", "expense", "mdi-bus", "coin"),
    Entry("Car Insurance", "expense", "mdi-shield-car", "coin"),
    Entry("Car Maintenance", "expense", "mdi-car-wrench", "coin"),
    Entry("Parking", "expense", "mdi-parking", "coin")
  ]

  /** Expense categories: food. */
  const FoodCategories: seq<Entry> := [
    Entry("Food & Dining", "expense", "mdi-food", "coin"),
    Entry("Groceries", "expense", "mdi-cart", "coin"),
    Entry("Restaurants", "expense", "mdi-silverware-fork-knife", "coin"),
    Entry("Takeout", "expense", "mdi-food-takeout-box", "coin"),
    Entry("Coffee", "expense", "mdi-coffee", "coin")
  ]

  /** Expense categories: healthcare, shared by all apps. */
  const HealthcareCategories: seq<Entry> := [
    Entry("Healthcare", "expense", "mdi-hospital", "all"),
    Entry("Medical Bills", "expense", "mdi-medical-bag", "all"),
    Entry("Dental", "expense", "mdi-tooth", "all"),
    Entry("Vision", "expense", "mdi-glasses", "all"),
    Entry("Pharmacy", "expense", "mdi-pill", "all"),
    Entry("Insurance", "expense", "mdi-shield", "all")
  ]

  /** Expense categories: entertainment. */
  const EntertainmentCategories: seq<Entry> := [
    Entry("Entertainment", "expense", "mdi-gamepad-variant", "coin"),
    Entry("Movies", "expense", "mdi-movie", "coin"),
    Entry("Streaming Services", "expense", "mdi-play-network", "coin"),
    Entry("Gaming", "expense", "mdi-controller", "coin"),
    Entry("Books", "expense", "mdi-book", "coin"),
    Entry("Hobbies", "expense", "mdi-palette", "coin")
  ]

  /** Expense categories: shopping. */
  const ShoppingCategories: seq<Entry> := [
    Entry("Shopping", "expense", "mdi-shopping", "coin"),
    Entry("Clothing", "expense", "mdi-tshirt-crew", "coin"),
    Entry("Electronics", "expense", "mdi-devices", "coin"),
    Entry("Home & Garden", "expense", "mdi-home-variant", "coin"),
    Entry("Personal Care", "expense", "mdi-face-woman", "coin")
  ]

  /** Expense categories: education, shared by all apps. */
  const EducationCategories: seq<Entry> := [
    Entry("Education", "expense", "mdi-school", "all"),
    Entry("Tuition", "expense", "mdi-school", "all"),
    Entry("Books & Supplies", "expense", "mdi-book-open", "all"),
    Entry("Courses", "expense", "mdi-certificate", "all")
  ]

  /** Expense categories: other. */
  const OtherCategories: seq<Entry> := [
    Entry("Taxes", "expense", "mdi-bank", "coin"),
    Entry("Gifts", "expense", "mdi-gift", "coin"),
    Entry("Donations", "expense", "mdi-hand-heart", "coin"),
    Entry("Other", "expense", "mdi-dots-horizontal", "all")
  ]

  /** `PREDEFINED_CATEGORIES`, in list order: the groups above one after
      the other. */
  const PredefinedCategories: seq<Entry> :=
    IncomeCategories + UtilityCategories + HousingCategories + TransportationCategories
    + FoodCategories + HealthcareCategories + EntertainmentCategories
    + ShoppingCategories + EducationCategories + OtherCategories

  /** The row seeding builds for an entry: predefined, ownerless, with the
      entry's name, type, icon and scope. */
  function SeedRow(e: Entry): (c: SharedCategory)
    ensures c.isPredefined && c.userId.None? && c.parentId.None?
    ensures c.name == e.name && c.categoryType == e.categoryType
    ensures c.icon == Some(e.icon) && c.appScope == e.appScope
  {
    NewSharedCategory(e.name, e.categoryType, e.appScope, icon := Some(e.icon), isPredefined := true, userId := None)
  }

  /** The rows built for `entries`, one per entry, in order. */
  function SeedRows(entries: seq<Entry>): (rows: seq<SharedCategory>)
    ensures |rows| == |entries|
    ensures forall i :: 0 <= i < |rows| ==> rows[i] == SeedRow(entries[i])
  {
    seq(|entries|, i requires 0 <= i < |entries| => SeedRow(entries[i]))
  }

  /** The rows one seeding run adds, in list order. */
  function PredefinedRows(): (rows: seq<SharedCategory>)
    ensures |rows| == |PredefinedCategories|
    ensures forall i :: 0 <= i < |rows| ==> rows[i] == SeedRow(PredefinedCategories[i])
  {
    SeedRows(PredefinedCategories)
  }

  /** `query(SharedCategory).filter(is_predefined == True).count()`. */
  function CountPredefined(rows: seq<SharedCategory>): (n: nat)
    ensures n <= |rows|
    decreases |rows|
  {
    if rows == [] then 0
    else CountPredefined(rows[..|rows| - 1]) + (if rows[|rows| - 1].isPredefined then 1 else 0)
  }

  /** The table after seeding: the existing rows are kept as they are; when
      one of them is predefined nothing is added, otherwise the predefined
      rows follow them. */
  function Seeded(rows: seq<SharedCategory>): (r: seq<SharedCategory>)
    ensures |rows| <= |r| && r[..|rows|] == rows
    ensures (exists i :: 0 <= i < |rows| && rows[i].isPredefined) ==> r == rows
    ensures !(exists i :: 0 <= i < |rows| && rows[i].isPredefined) ==> r[|rows|..] == PredefinedRows()
  {
    CountPredefinedPositive(rows);
    if CountPredefined(rows) > 0 then rows else rows + PredefinedRows()
  }

  /** The count is positive exactly when some row is predefined. */
  lemma {:induction false} CountPredefinedPositive(rows: seq<SharedCategory>)
    ensures CountPredefined(rows) > 0 <==> exists i :: 0 <= i < |rows| && rows[i].isPredefined
    decreases |rows|
  {
    if rows != [] {
      var init := rows[..|rows| - 1];
      CountPredefinedPositive(init);
      if exists i :: 0 <= i < |init| && init[i].isPredefined {
        var i :| 0 <= i < |init| && init[i].isPredefined;
        assert rows[i] == init[i];
      }
      if exists i :: 0 <= i < |rows| && rows[i].isPredefined {
        var i :| 0 <= i < |rows| && rows[i].isPredefined;
        if i < |init| {
          assert init[i] == rows[i];
        }
      }
    }
  }

  /** An entry that is an income or expense category scoped to the coin app
      or to all apps, and that passes the `CategoryBase` rules. */
  predicate Seedable(e: Entry) {
    && (e.categoryType == "income" || e.categoryType == "expense")
    && (e.appScope == "coin" || e.appScope == "all")
    && CategorySchemas.CategoryBaseValid(CategorySchemas.CategoryBase(e.name, e.categoryType, Some(e.icon), e.appScope, None))
  }

  predicate AllSeedable(entries: seq<Entry>) {
    forall e :: e in entries ==> Seedable(e)
  }

  /** Each group of entries is seedable, checked one group at a time. */
  lemma IncomeCategoriesSeedable()
    ensures AllSeedable(IncomeCategories)
  {
  }

  lemma UtilityCategoriesSeedable()
    ensures AllSeedable(UtilityCategories)
  {
  }

  lemma HousingCategoriesSeedable()
    ensures AllSeedable(HousingCategories)
  {
  }

  lemma TransportationCategoriesSeedable()
    ensures AllSeedable(TransportationCategories)
  {
  }

  lemma FoodCategoriesSeedable()
    ensures AllSeedable(FoodCategories)
  {
  }

  lemma HealthcareCategoriesSeedable()
    ensures AllSeedable(HealthcareCategories)
  {
  }

  lemma EntertainmentCategoriesSeedable()
    ensures AllSeedable(EntertainmentCategories)
  {
  }

  lemma ShoppingCategoriesSeedable()
    ensures AllSeedable(ShoppingCategories)
  {
  }

  lemma EducationCategoriesSeedable()
    ensures AllSeedable(EducationCategories)
  {
  }

  lemma OtherCategoriesSeedable()
    ensures AllSeedable(OtherCategories)
  {
  }


  /** Every one of the 53 predefined entries is seedable. */
  lemma PredefinedEntriesValid()
    ensures |PredefinedCategories| == 53
    ensures forall i :: 0 <= i < |PredefinedCategories| ==> Seedable(PredefinedCategories[i])
  {
    IncomeCategoriesSeedable();
    UtilityCategoriesSeedable();
    HousingCategoriesSeedable();
    TransportationCategoriesSeedable();
    FoodCategoriesSeedable();
    HealthcareCategoriesSeedable();
    EntertainmentCategoriesSeedable();
    ShoppingCategoriesSeedable();
    EducationCategoriesSeedable();
    OtherCategoriesSeedable();
    forall i | 0 <= i < |PredefinedCategories| ensures Seedable(PredefinedCategories[i]) {
      assert PredefinedCategories[i] in PredefinedCategories;
    }
  }

  /** Every seeded row keeps the ownership convention and, once the store
      has given it an id, is a valid `CategoryResponse`. */
  lemma PredefinedRowsWellFormed(id: int)
    ensures forall i :: 0 <= i < |PredefinedRows()| ==>
              && OwnershipConsistent(PredefinedRows()[i])
              && CategorySchemas.CategoryResponseOf(PredefinedRows()[i].(id := Some(id))).Some?
  {
    PredefinedEntriesValid();
  }

  /** After seeding, the table holds a predefined row. */
  lemma SeededHasPredefinedRow(rows: seq<SharedCategory>)
    ensures exists i :: 0 <= i < |Seeded(rows)| && Seeded(rows)[i].isPredefined
  {
    var r := Seeded(rows);
    if !(exists i :: 0 <= i < |rows| && rows[i].isPredefined) {
      PredefinedEntriesValid();
      assert r[|rows|..][0] == PredefinedRows()[0];
      assert r[|rows|].isPredefined;
    } else {
      var i :| 0 <= i < |rows| && rows[i].isPredefined;
      assert r[i] == rows[i];
    }
  }

  /** Seeding twice gives the same table as seeding once. */
  lemma SeedIdempotent(rows: seq<SharedCategory>)
    ensures Seeded(Seeded(rows)) == Seeded(rows)
  {
    SeededHasPredefinedRow(rows);
  }

  /** Rows that are all user categories do not block seeding: all 53
      predefined rows are added after them. */
  lemma UserRowsDoNotBlock(rows: seq<SharedCategory>)
    requires forall i :: 0 <= i < |rows| ==> !rows[i].isPredefined
    ensures Seeded(rows) == rows + PredefinedRows()
    ensures |Seeded(rows)| == |rows| + 53
  {
    PredefinedEntriesValid();
    assert Seeded(rows) == Seeded(rows)[..|rows|] + Seeded(rows)[|rows|..];
  }

  /** `seed_predefined_categories(db_session)`: when the table already holds
      a predefined row nothing is added or committed; otherwise one row per
      entry is added, in list order, and the session is committed once. */
  method SeedPredefinedCategories(db: Session<SharedCategory>) returns (outcome: Outcome)
    modifies db, db.store
    ensures db.closeCount == old(db.closeCount)
    ensures db.commitCount == old(db.commitCount) + (if CountPredefined(old(db.store.rows)) > 0 then 0 else 1)
    ensures CountPredefined(old(db.store.rows)) > 0 ==>
              outcome == Pass && db.store.rows == old(db.store.rows) && db.pending == old(db.pending)
    ensures CountPredefined(old(db.store.rows)) == 0 && db.store.writable ==>
              outcome == Pass && db.store.rows == old(db.store.rows) + old(db.pending) + PredefinedRows() && db.pending == []
    ensures CountPredefined(old(db.store.rows)) == 0 && !db.store.writable ==>
              && outcome == Fail(Other("OperationalError", "attempt to write a readonly database"))
              && db.store.rows == old(db.store.rows) && db.pending == old(db.pending) + PredefinedRows()
    ensures old(db.pending) == [] && outcome.Pass? ==> db.store.rows == Seeded(old(db.store.rows))
  {
    ghost var table := db.store.rows;
    ghost var before := db.pending;
    outcome := SeedEntries(db, PredefinedCategories);
    if before == [] && outcome.Pass? {
      SeededUnfold(table);
      if CountPredefined(table) == 0 {
        assert table + before == table;
        assert PredefinedRows() == SeedRows(PredefinedCategories);
      }
    }
  }

  /** `Seeded` by cases. */
  lemma SeededUnfold(rows: seq<SharedCategory>)
    ensures CountPredefined(rows) > 0 ==> Seeded(rows) == rows
    ensures CountPredefined(rows) == 0 ==> Seeded(rows) == rows + PredefinedRows()
  {
  }

  /** The body of `seed_predefined_categories` for a list of entries: the
      guard on the predefined-row count, the loop, and the single commit. */
  method SeedEntries(db: Session<SharedCategory>, entries: seq<Entry>) returns (outcome: Outcome)
    modifies db, db.store
    ensures db.closeCount == old(db.closeCount)
    ensures db.commitCount == old(db.commitCount) + (if CountPredefined(old(db.store.rows)) > 0 then 0 else 1)
    ensures CountPredefined(old(db.store.rows)) > 0 ==>
              outcome == Pass && db.store.rows == old(db.store.rows) && db.pending == old(db.pending)
    ensures CountPredefined(old(db.store.rows)) == 0 && db.store.writable ==>
              outcome == Pass && db.store.rows == old(db.store.rows) + old(db.pending) + SeedRows(entries) && db.pending == []
    ensures CountPredefined(old(db.store.rows)) == 0 && !db.store.writable ==>
              && outcome == Fail(Other("OperationalError", "attempt to write a readonly database"))
              && db.store.rows == old(db.store.rows) && db.pending == old(db.pending) + SeedRows(entries)
  {
    var existingCount := CountPredefined(db.store.rows);
    if existingCount > 0 {
      return Pass;
    }
    AddSeedRows(db, entries);
    outcome := db.Commit();
  }

  /** The loop of `seed_predefined_categories`: one `add` per entry, in
      order; nothing is committed. */
  method AddSeedRows(db: Session<SharedCategory>, entries: seq<Entry>)
    modifies db
    ensures db.pending == old(db.pending) + SeedRows(entries)
    ensures db.commitCount == old(db.commitCount) && db.closeCount == old(db.closeCount)
  {
    for i := 0 to |entries|
      invariant db.pending == old(db.pending) + SeedRows(entries)[..i]
      invariant db.commitCount == old(db.commitCount) && db.closeCount == old(db.closeCount)
    {
      db.Add(SeedRow(entries[i]));
      assert SeedRows(entries)[..i + 1] == SeedRows(entries)[..i] + [SeedRows(entries)[i]];
    }
    assert SeedRows(entries)[..|entries|] == SeedRows(entries);
  }

  /** `initialize_database(db_path, seed_data)`: initialise the common
      database, then, when `seed_data` holds, take one session from the
      common session generator, seed through it, and close it whether or not
      seeding succeeded. The generator has already closed that session once
      by then, so it is closed twice in all. Table creation is not part of
      this model. */
  method InitializeDatabase(registry: Registry, store: Store<SharedCategory>, dbPath: Option<string>, seedData: bool)
    returns (engine: Engine, outcome: Outcome, db: Session?<SharedCategory>)
    requires registry.Valid()
    modifies registry, store
    ensures registry.Valid()
    ensures engine == CreateDatabaseEngine(CommonDbPath(dbPath, registry.env), old(registry.created), registry.cwd, registry.home)
    ensures registry.created == old(registry.created) + 1
    ensures registry.commonEngine == Some(engine) && registry.commonSessionMaker == Some(CreateSessionMaker(engine))
    ensures registry.appEngine == old(registry.appEngine) && registry.appSessionMaker == old(registry.appSessionMaker)
    ensures !seedData ==> db == null && outcome == Pass && store.rows == old(store.rows)
    ensures seedData ==> db != null && fresh(db) && db.engine == engine && db.store == store
                         && db.closeCount == 2 && db.pending == []
                         && db.commitCount == (if CountPredefined(old(store.rows)) > 0 then 0 else 1)
    ensures seedData ==> (outcome.Pass? <==> store.writable || CountPredefined(old(store.rows)) > 0)
    ensures outcome.Pass? ==> store.rows == (if seedData then Seeded(old(store.rows)) else old(store.rows))
    ensures outcome.Fail? ==> store.rows == old(store.rows)
  {
    engine := registry.InitCommonDb(dbPath);
    outcome := Pass;
    db := null;
    if seedData {
      var maker := registry.GetCommonDb();
      // `next(get_common_db())` keeps no reference to the generator, so it is
      // finalised as soon as it has yielded: its `finally` closes the session
      // before seeding starts. The closed session stays usable.
      var session, _ := GetDatabaseSession(maker, store, Pass);
      outcome := SeedPredefinedCategories(session);
      session.Close();
      db := session;
    }
  }

  /** Seeding the same table through one session twice leaves it as one
      seeding does. */
  method SeedTwiceSameAsOnce(rows: seq<SharedCategory>, maker: SessionMaker)
    returns (once: seq<SharedCategory>, twice: seq<SharedCategory>)
    ensures once == Seeded(rows) && twice == once
  {
    var store := new Store(rows, true);
    var db := new Session(maker, store);
    var _ := SeedPredefinedCategories(db);
    once := store.rows;
    SeededHasPredefinedRow(rows);
    CountPredefinedPositive(once);
    var _ := SeedPredefinedCategories(db);
    twice := store.rows;
  }

  /** Running the whole initialisation twice on a fresh registry creates two
      engines, one per run, but seeds the table only once. */
  method InitializeTwiceSeedsOnce(env: map<string, string>, cwd: string, home: string,
                                  rows: seq<SharedCategory>, dbPath: Option<string>)
    returns (table: seq<SharedCategory>, enginesCreated: nat, first: Outcome, second: Outcome)
    ensures first == Pass && second == Pass
    ensures table == Seeded(rows) && enginesCreated == 2
  {
    var registry := new Registry(env, cwd, home);
    var store := new Store(rows, true);
    var _, outcome1, _ := InitializeDatabase(registry, store, dbPath, true);
    first := outcome1;
    SeedIdempotent(rows);
    SeededHasPredefinedRow(rows);
    CountPredefinedPositive(store.rows);
    var _, outcome2, _ := InitializeDatabase(registry, store, dbPath, true);
    second := outcome2;
    table := store.rows;
    enginesCreated := registry.created;
  }
}

=== FILE: jwt_handler.dfy ===
/** The token service of common_club/auth/jwt_handler.py: which claims an
    access token carries, and how the decoder's outcome becomes the payload or
    a `ValueError`. Signing and checking signatures (HS256) belong to the JOSE
    library; here `jwt.encode` and `jwt.decode` are function parameters. */
module JwtHandler {
  import opened Common
  import PyInt

  const SecretKeyVar := "JWT_SECRET_KEY"
  const DevSecretKey := "dev-secret-key-change-in-production"
  const Algorithm := "HS256"
  const AccessTokenExpireDays := 30
  const SecondsPerDay := 86400

  /** What `jwt.decode` produces: the payload, a `JWTError` with its message,
      or some other exception escaping the library. */
  datatype DecodeOutcome =
    | Decoded(payload: Payload)
    | JwtError(message: string)
    | Raised(error: Exc)

  /** `jwt.encode(claims, key, algorithm=...)`. */
  type Encoder = (Payload, string, string) -> string
  /** `jwt.decode(token, key, algorithms=[...])`. */
  type Decoder = (string, string, seq<string>) -> DecodeOutcome

  /** The message of the `ExpiredSignatureError` (a `JWTError`) that
      `jwt.decode` raises for an expired token. */
  const ExpiredMessage := "Signature has expired."

  /** The expiry check `jwt.decode` makes at clock reading `at` (leeway 0): a
      claim set whose integer `exp` lies before `at` has expired. */
  predicate Expired(claims: Payload, at: int) {
    "exp" in claims && claims["exp"].Int? && claims["exp"].i < at
  }

  /** A value that survives the JSON round trip unchanged. */
  predicate JsonScalar(v: Value) {
    v.Null? || v.Bool? || v.Int? || v.Str?
  }

  /** The claim sets `jwt.decode` (called with no audience, issuer or access
      token) can give back unchanged: JSON scalars only, a string `sub` and
      `jti`, integer `exp` and `iat`, and no `nbf` or `aud` claim. Other claim
      sets make the library's claim checks raise or alter them on the way. */
  predicate LibraryAccepts(claims: Payload) {
    && (forall k :: k in claims ==> JsonScalar(claims[k]))
    && ("sub" !in claims || claims["sub"].Str?)
    && ("jti" !in claims || claims["jti"].Str?)
    && ("exp" !in claims || claims["exp"].Int?)
    && ("iat" !in claims || claims["iat"].Int?)
    && "nbf" !in claims && "aud" !in claims
  }

  /** The property the JOSE library is trusted for, when `decode` runs at
      clock reading `at`: a token it signed with a key over a claim set it
      accepts decodes, under the same key and algorithm, to those claims if
      they have not expired by `at`, and to the expired-signature `JWTError`
      if they have. Nothing is assumed about other claim sets. */
  ghost predicate DecodeInvertsEncode(encode: Encoder, decode: Decoder, at: int) {
    forall claims: Payload, key: string {:trigger encode(claims, key, Algorithm)} ::
      LibraryAccepts(claims) ==>
        decode(encode(claims, key, Algorithm), key, [Algorithm])
          == (if Expired(claims, at) then JwtError(ExpiredMessage) else Decoded(claims))
  }

  /** `SECRET_KEY`, read from the environment once at import time; the
      development default is used only when the variable is absent. */
  function SecretKey(env: map<string, string>): (key: string)
    ensures SecretKeyVar in env ==> key == env[SecretKeyVar]
    ensures SecretKeyVar !in env ==> key == DevSecretKey
  {
    if SecretKeyVar in env then env[SecretKeyVar] else DevSecretKey
  }

  /** A `timedelta` in whole seconds is truthy exactly when it is not zero. */
  predicate Truthy(expiresDelta: Option<int>) {
    expiresDelta.Some? && expiresDelta.value != 0
  }

  /** The `exp` claim: `now + expires_delta` for a truthy delta; thirty days
      after `now` when the delta is missing or zero. */
  function ExpiresAt(now: int, expiresDelta: Option<int>): (exp: int)
    ensures Truthy(expiresDelta) ==> exp == now + expiresDelta.value
    ensures !Truthy(expiresDelta) ==> exp == now + 2592000
  {
    if Truthy(expiresDelta) then now + expiresDelta.value
    else now + AccessTokenExpireDays * SecondsPerDay
  }

  /** The four claim names are distinct strings. */
  lemma ClaimNamesDistinct()
    ensures "sub" != "email" && "sub" != "exp" && "sub" != "iat"
    ensures "email" != "exp" && "email" != "iat" && "exp" != "iat"
  {
    assert "sub"[0] == 's' && "exp"[0] == 'e' && "iat"[0] == 'i';
  }

  /** The dict `create_access_token` encodes: exactly `sub`, `email`, `exp`
      and `iat`, with `sub` the decimal text of the id, which `int()` turns
      back into the id. */
  function Claims(userId: int, email: string, now: int, expiresDelta: Option<int>): (claims: Payload)
    ensures claims.Keys == {"sub", "email", "exp", "iat"}
    ensures claims["sub"] == Str(PyInt.IntToString(userId))
    ensures claims["email"] == Str(email)
    ensures claims["exp"] == Int(ExpiresAt(now, expiresDelta)) && claims["iat"] == Int(now)
  {
    ClaimNamesDistinct();
    map["sub" := Str(PyInt.IntToString(userId)),
        "email" := Str(email),
        "exp" := Int(ExpiresAt(now, expiresDelta)),
        "iat" := Int(now)]
  }

  /** The claims `create_access_token` signs are a set the library gives back
      unchanged, so the round trip below rests on no unmet hypothesis. */
  lemma IssuedClaimsAccepted(userId: int, email: string, now: int, expiresDelta: Option<int>)
    ensures LibraryAccepts(Claims(userId, email, now, expiresDelta))
  {
  }

  /** The subject claim converts back to the user id with `int()`. */
  lemma SubjectReadsBack(userId: int, email: string, now: int, expiresDelta: Option<int>)
    ensures PyInt.ToInt(Claims(userId, email, now, expiresDelta)["sub"]) == Ok(userId)
  {
    PyInt.ToIntOfIntToString(userId);
  }

  /** `create_access_token(user_id, email, expires_delta)` at clock reading `now`. */
  function CreateAccessToken(encode: Encoder, secretKey: string, userId: int, email: string,
                             now: int, expiresDelta: Option<int>): (token: string)
    ensures token == encode(Claims(userId, email, now, expiresDelta), secretKey, Algorithm)
  {
    encode(Claims(userId, email, now, expiresDelta), secretKey, Algorithm)
  }

  /** `verify_token(token)`: the decoded payload when it has a non-null `sub`;
      otherwise a `ValueError` whose message starts with "Invalid token: ".
      Exceptions other than `JWTError` pass through unchanged. */
  function VerifyToken(decode: Decoder, secretKey: string, token: string): (r: Result<Payload, Exc>)
    ensures r.Ok? <==> decode(token, secretKey, [Algorithm]).Decoded?
                       && Get(decode(token, secretKey, [Algorithm]).payload, "sub") != Null
    ensures r.Ok? ==> r.value == decode(token, secretKey, [Algorithm]).payload
    ensures decode(token, secretKey, [Algorithm]).Decoded? && r.Err? ==>
              r.error == ValueError("Invalid token: missing user ID")
    ensures decode(token, secretKey, [Algorithm]).JwtError? ==>
              r.Err? && r.error.ValueError?
              && |r.error.message| >= 15 && r.error.message[..15] == "Invalid token: "
              && r.error.message[15..] == decode(token, secretKey, [Algorithm]).message
    ensures decode(token, secretKey, [Algorithm]).Raised? ==>
              r == Err(decode(token, secretKey, [Algorithm]).error)
  {
    match decode(token, secretKey, [Algorithm])
    case Decoded(payload) =>
      if Get(payload, "sub") == Null then Err(ValueError("Invalid token: missing user ID"))
      else Ok(payload)
    case JwtError(message) => Err(ValueError("Invalid token: " + message))
    case Raised(e) => Err(e)
  }

  /** `get_user_id_from_token(token)`: `int(verify_token(token)["sub"])`, with
      the errors of either step propagated. */
  function GetUserIdFromToken(decode: Decoder, secretKey: string, token: string): (r: Result<int, Exc>)
    ensures VerifyToken(decode, secretKey, token).Err? ==> r == Err(VerifyToken(decode, secretKey, token).error)
    ensures VerifyToken(decode, secretKey, token).Ok? ==>
              r == PyInt.ToInt(VerifyToken(decode, secretKey, token).value["sub"])
  {
    match VerifyToken(decode, secretKey, token)
    case Err(e) => Err(e)
    case Ok(payload) => PyInt.ToInt(Get(payload, "sub"))
  }

  /** Issue then verify: a token created for `userId` and `email` and
      verified no later than its expiry time verifies to exactly the claims
      that were signed, and its subject reads back as `userId`. */
  lemma TokenRoundTrip(encode: Encoder, decode: Decoder, at: int, secretKey: string, userId: int,
                       email: string, now: int, expiresDelta: Option<int>)
    requires DecodeInvertsEncode(encode, decode, at) && at <= ExpiresAt(now, expiresDelta)
    ensures VerifyToken(decode, secretKey, CreateAccessToken(encode, secretKey, userId, email, now, expiresDelta))
            == Ok(Claims(userId, email, now, expiresDelta))
    ensures GetUserIdFromToken(decode, secretKey, CreateAccessToken(encode, secretKey, userId, email, now, expiresDelta))
            == Ok(userId)
  {
    var claims := Claims(userId, email, now, expiresDelta);
    var token := CreateAccessToken(encode, secretKey, userId, email, now, expiresDelta);
    assert !Expired(claims, at);
    assert decode(token, secretKey, [Algorithm]) == Decoded(claims);
    assert Get(claims, "sub") == claims["sub"] != Null;
    assert VerifyToken(decode, secretKey, token) == Ok(claims);
    SubjectReadsBack(userId, email, now, expiresDelta);
  }

  /** A token verified after its expiry time is rejected with the library's
      message behind the "Invalid token: " prefix, by both `verify_token` and
      `get_user_id_from_token`. */
  lemma ExpiredTokenRejected(encode: Encoder, decode: Decoder, at: int, secretKey: string, userId: int,
                             email: string, now: int, expiresDelta: Option<int>)
    requires DecodeInvertsEncode(encode, decode, at) && at > ExpiresAt(now, expiresDelta)
    ensures VerifyToken(decode, secretKey, CreateAccessToken(encode, secretKey, userId, email, now, expiresDelta))
            == Err(ValueError("Invalid token: " + ExpiredMessage))
    ensures GetUserIdFromToken(decode, secretKey, CreateAccessToken(encode, secretKey, userId, email, now, expiresDelta))
            == Err(ValueError("Invalid token: " + ExpiredMessage))
  {
    var claims := Claims(userId, email, now, expiresDelta);
    var token := CreateAccessToken(encode, secretKey, userId, email, now, expiresDelta);
    assert Expired(claims, at);
    assert decode(token, secretKey, [Algorithm]) == JwtError(ExpiredMessage);
  }

  /** A token issued with a negative `expires_delta` never verifies, not even
      at the moment it was issued. */
  lemma NegativeLifetimeNeverVerifies(encode: Encoder, decode: Decoder, at: int, secretKey: string, userId: int,
                                      email: string, now: int, lifetime: int)
    requires DecodeInvertsEncode(encode, decode, at) && lifetime < 0 && now <= at
    ensures VerifyToken(decode, secretKey, CreateAccessToken(encode, secretKey, userId, email, now, Some(lifetime))).Err?
  {
    ExpiredTokenRejected(encode, decode, at, secretKey, userId, email, now, Some(lifetime));
  }

  /** The `iat < exp` invariant of an identity claim holds whenever the
      requested lifetime is not negative (a zero lifetime falls back to thirty
      days). A negative `expires_delta` yields a token that expired before it
      was issued. */
  lemma ExpiryAfterIssue(userId: int, email: string, now: int, expiresDelta: Option<int>)
    ensures var c := Claims(userId, email, now, expiresDelta);
            (expiresDelta.None? || expiresDelta.value >= 0) <==> c["iat"].i < c["exp"].i
  {
  }
}

=== FILE: pyint.dfy ===
/** Python's `str(n)` for an integer and `int(x)` on the values a token
    payload can hold: the two conversions that carry a user id into the
    token's `sub` claim and back out of it. */
module PyInt {
  import opened Common

  predicate IsDigit(c: char) {
    '0' <= c <= '9'
  }

  function DigitValue(c: char): (d: nat)
    requires IsDigit(c)
    ensures d < 10
  {
    c as int - '0' as int
  }

  function DigitChar(d: nat): (c: char)
    requires d < 10
    ensures IsDigit(c) && DigitValue(c) == d
  {
    ('0' as int + d) as char
  }

  predicate AllDigits(s: string) {
    forall i :: 0 <= i < |s| ==> IsDigit(s[i])
  }

  /** The decimal digits of `n`, most significant first, without leading zeros. */
  function NatToDecimal(n: nat): (s: string)
    ensures |s| >= 1 && AllDigits(s)
    ensures s[0] == '0' ==> n == 0
    decreases n
  {
    if n < 10 then [DigitChar(n)] else NatToDecimal(n / 10) + [DigitChar(n % 10)]
  }

  /** `str(n)`: an optional minus sign followed by the digits of |n|. */
  function IntToString(n: int): (s: string)
    ensures |s| >= 1
    ensures n < 0 <==> s[0] == '-'
    ensures n < 0 ==> s[1..] == NatToDecimal(-n)
    ensures n >= 0 ==> s == NatToDecimal(n)
  {
    if n < 0 then "-" + NatToDecimal(-n) else NatToDecimal(n)
  }

  /** The value of a non-empty run of decimal digits (leading zeros allowed). */
  function DecimalValue(s: string): nat
    requires AllDigits(s)
    decreases |s|
  {
    if s == [] then 0 else 10 * DecimalValue(s[..|s| - 1]) + DigitValue(s[|s| - 1])
  }

  /** The characters `str.isspace()` accepts, which `int()` strips from both ends. */
  predicate IsSpace(c: char) {
    || c == ' ' || ('\t' <= c <= '\r') || ('\U{1c}' <= c <= '\U{1f}')
    || c == '\U{85}' || c == '\U{a0}' || c == '\U{1680}' || ('\U{2000}' <= c <= '\U{200a}')
    || c == '\U{2028}' || c == '\U{2029}' || c == '\U{202f}' || c == '\U{205f}' || c == '\U{3000}'
  }

  function TrimLeft(s: string): (t: string)
    ensures |t| <= |s| && t == s[|s| - |t|..]
    ensures t != [] ==> !IsSpace(t[0])
    decreases |s|
  {
    if s != [] && IsSpace(s[0]) then TrimLeft(s[1..]) else s
  }

  function TrimRight(s: string): (t: string)
    ensures |t| <= |s| && t == s[..|t|]
    ensures t != [] ==> !IsSpace(t[|t| - 1])
    decreases |s|
  {
    if s != [] && IsSpace(s[|s| - 1]) then TrimRight(s[..|s| - 1]) else s
  }

  /** `s.strip()`. */
  function Strip(s: string): (t: string)
    ensures t != [] ==> !IsSpace(t[0]) && !IsSpace(t[|t| - 1])
  {
    TrimLeft(TrimRight(s))
  }

  /** Digits with single underscores between them, as `int()` accepts them. */
  predicate WellFormedDigits(s: string) {
    && |s| >= 1
    && IsDigit(s[0]) && IsDigit(s[|s| - 1])
    && (forall i :: 0 <= i < |s| ==> IsDigit(s[i]) || s[i] == '_')
    && (forall i :: 0 <= i < |s| - 1 ==> s[i] == '_' ==> s[i + 1] != '_')
  }

  function RemoveUnderscores(s: string): (t: string)
    requires forall i :: 0 <= i < |s| ==> IsDigit(s[i]) || s[i] == '_'
    ensures AllDigits(t)
    decreases |s|
  {
    if s == [] then []
    else if s[0] == '_' then RemoveUnderscores(s[1..])
    else [s[0]] + RemoveUnderscores(s[1..])
  }

  /** The value of an unsigned literal: digits with single underscores
      between them, or `None`. */
  function ParseDigits(digits: string): (r: Option<nat>)
    ensures r.Some? <==> WellFormedDigits(digits)
  {
    if WellFormedDigits(digits) then Some(DecimalValue(RemoveUnderscores(digits))) else None
  }

  /** `int(s)` on a string, base 10: surrounding white space is stripped, one
      optional sign, then digits with single underscores between them. */
  function ParseInt(s: string): (r: Option<int>)
    ensures r.Some? ==> Strip(s) != []
  {
    var t := Strip(s);
    var signed := t != [] && (t[0] == '+' || t[0] == '-');
    match ParseDigits(if signed then t[1..] else t)
    case None => None
    case Some(magnitude) => Some(if signed && t[0] == '-' then -(magnitude as int) else magnitude)
  }

  /** The message of the `ValueError` that `int()` raises on a bad literal
      (the quoting that `repr` applies to the literal is not modelled). */
  function InvalidLiteral(s: string): string {
    InvalidLiteralPrefix + "'" + s + "'"
  }

  const InvalidLiteralPrefix := "invalid literal for int() with base 10: "

  /** The message of the `TypeError` that `int()` raises on an object of
      class `typeName`. */
  function NotANumber(typeName: string): string {
    "int() argument must be a string, a bytes-like object or a real number, not '" + typeName + "'"
  }

  /** `int(v)` for a payload value: strings are parsed, integers returned,
      booleans become 0 or 1, and `None` or any other object raises
      `TypeError`. ISO text is a string that is never a valid literal (it
      holds '-', ':' and 'T'), so it raises `ValueError`; the text itself is
      not modelled, so that message stops before the quoted literal. */
  function ToInt(v: Value): (r: Result<int, Exc>)
    ensures r.Err? ==> r.error.ValueError? || r.error.TypeError?
    ensures r.Err? && r.error.ValueError? <==> (v.Str? && ParseInt(v.s).None?) || v.IsoText?
    ensures r.Err? && r.error.ValueError? ==> InvalidLiteralPrefix <= r.error.message
    ensures r.Err? && r.error.TypeError? <==> v.Null? || v.Compound?
    ensures v.Str? && ParseInt(v.s).Some? ==> r == Ok(ParseInt(v.s).value)
    ensures v.Int? ==> r == Ok(v.i)
    ensures v.Bool? ==> r == Ok(if v.b then 1 else 0)
  {
    match v
    case Str(s) =>
      (match ParseInt(s)
       case Some(n) => Ok(n)
       case None => Err(ValueError(InvalidLiteral(s))))
    case Int(i) => Ok(i)
    case Bool(b) => Ok(if b then 1 else 0)
    case Null => Err(TypeError(NotANumber("NoneType")))
    case IsoText(_) => Err(ValueError(InvalidLiteralPrefix))
    case Compound(name) => Err(TypeError(NotANumber(name)))
  }

  lemma {:induction false} DecimalValueAppend(s: string, c: char)
    requires AllDigits(s) && IsDigit(c)
    ensures AllDigits(s + [c])
    ensures DecimalValue(s + [c]) == 10 * DecimalValue(s) + DigitValue(c)
  {
    assert (s + [c])[..|s + [c]| - 1] == s;
  }

  /** Reading back the digits `str` writes gives the number. */
  lemma {:induction false} DecimalRoundTrip(n: nat)
    ensures DecimalValue(NatToDecimal(n)) == n
    decreases n
  {
    if n >= 10 {
      DecimalRoundTrip(n / 10);
      DecimalValueAppend(NatToDecimal(n / 10), DigitChar(n % 10));
    }
  }

  lemma {:induction false} RemoveUnderscoresOfDigits(s: string)
    requires AllDigits(s)
    ensures RemoveUnderscores(s) == s
    decreases |s|
  {
    if s != [] {
      RemoveUnderscoresOfDigits(s[1..]);
    }
  }

  /** `str(n)` has no white space to strip. */
  lemma StripOfIntToString(n: int)
    ensures Strip(IntToString(n)) == IntToString(n)
  {
    var s := IntToString(n);
    assert !IsSpace(s[0]) && !IsSpace(s[|s| - 1]);
    assert TrimRight(s) == s;
  }

  /** The digits `str` writes for a natural number read back as that number. */
  lemma ParseDigitsOfNatToDecimal(m: nat)
    ensures ParseDigits(NatToDecimal(m)) == Some(m)
  {
    var digits := NatToDecimal(m);
    assert WellFormedDigits(digits);
    RemoveUnderscoresOfDigits(digits);
    DecimalRoundTrip(m);
  }

  /** `int(str(n)) == n` for every integer. */
  lemma ParseIntOfIntToString(n: int)
    ensures ParseInt(IntToString(n)) == Some(n)
  {
    var s := IntToString(n);
    StripOfIntToString(n);
    if n < 0 {
      ParseDigitsOfNatToDecimal(-n);
      assert s[1..] == NatToDecimal(-n);
    } else {
      ParseDigitsOfNatToDecimal(n);
      assert !(s[0] == '+' || s[0] == '-');
    }
  }

  /** The `sub` claim written by `str(user_id)` converts back to the id. */
  lemma ToIntOfIntToString(n: int)
    ensures ToInt(Str(IntToString(n))) == Ok(n)
  {
    ParseIntOfIntToString(n);
  }

  /** `str` is injective on integers: distinct ids give distinct `sub` claims. */
  lemma IntToStringInjective(m: int, n: int)
    requires IntToString(m) == IntToString(n)
    ensures m == n
  {
    ParseIntOfIntToString(m);
    ParseIntOfIntToString(n);
  }
}

=== FILE: shared_category.dfy ===
/** common_club/models/shared_category.py: the `shared_categories` and
    `app_settings` records. Non-nullable columns are plain fields, nullable
    ones are `Option`s; the primary key and the server-side timestamps are
    filled in by the store, so a record not yet flushed has them as `None`. */
module SharedCategoryModel {
  import opened Common

  datatype SharedCategory = SharedCategory(
    id: Option<int>,
    name: string,
    categoryType: string,
    icon: Option<string>,
    appScope: string,
    isPredefined: bool,
    userId: Option<int>,
    parentId: Option<int>,
    createdAt: Option<int>)

  /** The row an INSERT of `SharedCategory(name=..., type=..., app_scope=...,
      ...)` writes: a keyword argument not given takes its column default
      (`is_predefined` False, applied by the INSERT; the nullable columns
      `None`), while the id and `created_at` are still left for the store to
      assign. */
  function NewSharedCategory(name: string, categoryType: string, appScope: string,
                             icon: Option<string> := None, isPredefined: bool := false,
                             userId: Option<int> := None, parentId: Option<int> := None): (c: SharedCategory)
    ensures c.name == name && c.categoryType == categoryType && c.appScope == appScope
    ensures c.icon == icon && c.isPredefined == isPredefined && c.userId == userId && c.parentId == parentId
    ensures c.id.None? && c.createdAt.None?
  {
    SharedCategory(None, name, categoryType, icon, appScope, isPredefined, userId, parentId, None)
  }

  /** The convention the class documents (and the database does not enforce):
      predefined rows have no owner, user rows have one. */
  predicate OwnershipConsistent(c: SharedCategory) {
    c.isPredefined <==> c.userId.None?
  }

  const SharedCategoryKeys: set<string> :=
    {"id", "name", "type", "icon", "app_scope", "is_predefined", "user_id", "parent_id", "created_at"}

  /** `SharedCategory.to_dict()`: exactly nine keys, each the column of the
      same name; `created_at` is its ISO text, or `None` when unset. */
  function CategoryToDict(c: SharedCategory): (d: Payload)
    ensures d.Keys == SharedCategoryKeys
    ensures d["name"] == Str(c.name) && d["type"] == Str(c.categoryType) && d["app_scope"] == Str(c.appScope)
    ensures d["is_predefined"] == Bool(c.isPredefined)
    ensures d["id"] == OptInt(c.id) && d["icon"] == OptStr(c.icon)
    ensures d["user_id"] == OptInt(c.userId) && d["parent_id"] == OptInt(c.parentId)
    ensures d["created_at"] == Null <==> c.createdAt.None?
    ensures c.createdAt.Some? ==> d["created_at"] == IsoText(c.createdAt.value)
  {
    map["id" := OptInt(c.id),
        "name" := Str(c.name),
        "type" := Str(c.categoryType),
        "icon" := OptStr(c.icon),
        "app_scope" := Str(c.appScope),
        "is_predefined" := Bool(c.isPredefined),
        "user_id" := OptInt(c.userId),
        "parent_id" := OptInt(c.parentId),
        "created_at" := OptIso(c.createdAt)]
  }

  /** Two categories with the same projection are the same record: `to_dict`
      loses no column. */
  lemma CategoryToDictInjective(a: SharedCategory, b: SharedCategory)
    requires CategoryToDict(a) == CategoryToDict(b)
    ensures a == b
  {
    assert CategoryToDict(a)["id"] == CategoryToDict(b)["id"];
    assert CategoryToDict(a)["icon"] == CategoryToDict(b)["icon"];
    assert CategoryToDict(a)["user_id"] == CategoryToDict(b)["user_id"];
    assert CategoryToDict(a)["parent_id"] == CategoryToDict(b)["parent_id"];
    assert CategoryToDict(a)["created_at"] == CategoryToDict(b)["created_at"];
  }

  /** A category built with only the required columns is a user category by
      its flag but has no owner: the defaults alone do not meet the
      documented ownership convention, the caller has to. */
  lemma DefaultsLeaveOwnershipToCaller(name: string, categoryType: string, appScope: string)
    ensures !NewSharedCategory(name, categoryType, appScope).isPredefined
    ensures !OwnershipConsistent(NewSharedCategory(name, categoryType, appScope))
  {
  }

  datatype AppSettings = AppSettings(
    id: Option<int>,
    userId: int,
    appName: string,
    key: string,
    value: Option<string>,
    updatedAt: Option<int>)

  const AppSettingsKeys: set<string> := {"id", "user_id", "app_name", "key", "value", "updated_at"}

  /** `AppSettings.to_dict()`: exactly six keys, each the column of the same name. */
  function SettingsToDict(s: AppSettings): (d: Payload)
    ensures d.Keys == AppSettingsKeys
    ensures d["user_id"] == Int(s.userId) && d["app_name"] == Str(s.appName) && d["key"] == Str(s.key)
    ensures d["id"] == OptInt(s.id) && d["value"] == OptStr(s.value)
    ensures d["updated_at"] == Null <==> s.updatedAt.None?
    ensures s.updatedAt.Some? ==> d["updated_at"] == IsoText(s.updatedAt.value)
  {
    map["id" := OptInt(s.id),
        "user_id" := Int(s.userId),
        "app_name" := Str(s.appName),
        "key" := Str(s.key),
        "value" := OptStr(s.value),
        "updated_at" := OptIso(s.updatedAt)]
  }
}

=== FILE: user_model.dfy ===
/** common_club/models/user.py: the `users` record, its projection without
    the password hash, and the uniqueness of e-mail addresses across the
    table. */
module UserModel {
  import opened Common

  /** `email` and `password_hash` are required, `name` is nullable; the id and
      the timestamps are filled in by the store. */
  datatype User = User(
    id: Option<int>,
    email: string,
    passwordHash: string,
    name: Option<string>,
    createdAt: Option<int>,
    updatedAt: Option<int>)

  const UserKeys: set<string> := {"id", "email", "name", "created_at", "updated_at"}

  /** `User.to_dict()`: exactly five keys, never `password_hash`; the
      timestamps map to `None` when unset. */
  function UserToDict(u: User): (d: Payload)
    ensures d.Keys == UserKeys && "password_hash" !in d
    ensures d["id"] == OptInt(u.id) && d["email"] == Str(u.email) && d["name"] == OptStr(u.name)
    ensures d["created_at"] == OptIso(u.createdAt) && d["updated_at"] == OptIso(u.updatedAt)
  {
    map["id" := OptInt(u.id),
        "email" := Str(u.email),
        "name" := OptStr(u.name),
        "created_at" := OptIso(u.createdAt),
        "updated_at" := OptIso(u.updatedAt)]
  }

  /** The projection does not depend on the password hash at all: two users
      that differ only in their hash give the same dict. */
  lemma ToDictHidesPasswordHash(u: User, hash: string)
    ensures UserToDict(u.(passwordHash := hash)) == UserToDict(u)
  {
  }

  /** The `unique=True` constraint on `email`. */
  predicate UniqueEmails(users: seq<User>) {
    forall i, j :: 0 <= i < j < |users| ==> users[i].email != users[j].email
  }

  /** Inserting a user into the `users` table: the unique index on `email`
      rejects a second row with an address already present. */
  function InsertUser(users: seq<User>, u: User): (r: Result<seq<User>, Exc>)
    ensures r.Err? <==> exists i :: 0 <= i < |users| && users[i].email == u.email
    ensures r.Ok? ==> r.value == users + [u]
    ensures r.Err? ==> r.error == Other("IntegrityError", "UNIQUE constraint failed: users.email")
  {
    if exists i :: 0 <= i < |users| && users[i].email == u.email
    then Err(Other("IntegrityError", "UNIQUE constraint failed: users.email"))
    else Ok(users + [u])
  }

  /** Insertion keeps every address unique. */
  lemma InsertUserKeepsEmailsUnique(users: seq<User>, u: User)
    requires UniqueEmails(users)
    ensures InsertUser(users, u).Ok? ==> UniqueEmails(InsertUser(users, u).value)
  {
    if InsertUser(users, u).Ok? {
      var t := users + [u];
      forall i, j | 0 <= i < j < |t| ensures t[i].email != t[j].email {
        if j == |users| {
          assert t[i] == users[i];
        }
      }
    }
  }
}

=== FILE: user_schema.dfy ===
/** common_club/schemas/user.py: the validation rules of the user request
    and response shapes. Checking an e-mail address is the job of the
    email-validator library; it is a parameter that returns the address as
    the schema stores it, or `None` when the address is rejected. */
module UserSchemas {
  import opened Common
  import opened Fields
  import opened UserModel

  type EmailValidator = string -> Option<string>

  const MinPasswordLength := 8
  const DefaultTokenType := "bearer"

  /** An `EmailStr` field that must be present. */
  function RequiredEmail(body: Payload, key: string, validate: EmailValidator): (r: Option<string>)
    ensures r.Some? <==> key in body && body[key].Str? && validate(body[key].s).Some?
    ensures r.Some? ==> r.value == validate(body[key].s).value
  {
    if key in body && body[key].Str? then validate(body[key].s) else None
  }

  datatype UserCreate = UserCreate(email: string, name: Option<string>, password: string)

  /** `UserCreate`: a valid e-mail address, an optional name, and a password
      of at least eight characters. */
  function ParseUserCreate(body: Payload, validate: EmailValidator): (r: Option<UserCreate>)
    ensures r.Some? <==>
              && RequiredEmail(body, "email", validate).Some?
              && (Get(body, "name") == Null || Get(body, "name").Str?)
              && "password" in body && body["password"].Str? && |body["password"].s| >= MinPasswordLength
    ensures r.Some? ==> |r.value.password| >= MinPasswordLength && r.value.password == body["password"].s
    ensures r.Some? ==> (r.value.name.None? <==> Get(body, "name") == Null)
    ensures r.Some? && Get(body, "name").Str? ==> r.value.name == Some(Get(body, "name").s)
    ensures r.Some? ==> r.value.email == validate(body["email"].s).value
  {
    match (RequiredEmail(body, "email", validate), OptionalStr(body, "name"), RequiredStr(body, "password"))
    case (Some(email), Some(name), Some(password)) =>
      if |password| >= MinPasswordLength then Some(UserCreate(email, name, password)) else None
    case _ => None
  }

  datatype UserLogin = UserLogin(email: string, password: string)

  /** `UserLogin`: a valid e-mail address and any password string. */
  function ParseUserLogin(body: Payload, validate: EmailValidator): (r: Option<UserLogin>)
    ensures r.Some? <==> RequiredEmail(body, "email", validate).Some? && "password" in body && body["password"].Str?
    ensures r.Some? ==> r.value.password == body["password"].s
    ensures r.Some? ==> r.value.email == validate(body["email"].s).value
  {
    match (RequiredEmail(body, "email", validate), RequiredStr(body, "password"))
    case (Some(email), Some(password)) => Some(UserLogin(email, password))
    case _ => None
  }

  /** Login puts no length rule on the password: a body that registration
      rejects only because the password is short is still a valid login. */
  lemma LoginAcceptsShortPasswords(body: Payload, validate: EmailValidator)
    requires RequiredEmail(body, "email", validate).Some?
    requires Get(body, "name") == Null || Get(body, "name").Str?
    requires "password" in body && body["password"].Str? && |body["password"].s| < MinPasswordLength
    ensures ParseUserCreate(body, validate).None?
    ensures ParseUserLogin(body, validate) == Some(UserLogin(RequiredEmail(body, "email", validate).value, body["password"].s))
  {
  }

  datatype UserUpdate = UserUpdate(name: Option<string>, email: Option<string>)

  /** `UserUpdate`: both fields optional; a given e-mail must be valid. */
  function ParseUserUpdate(body: Payload, validate: EmailValidator): (r: Option<UserUpdate>)
    ensures r.Some? <==>
              && (Get(body, "name") == Null || Get(body, "name").Str?)
              && (Get(body, "email") == Null || (Get(body, "email").Str? && validate(Get(body, "email").s).Some?))
    ensures r.Some? ==> (r.value.name.None? <==> Get(body, "name") == Null)
                        && (r.value.email.None? <==> Get(body, "email") == Null)
    ensures r.Some? && Get(body, "name").Str? ==> r.value.name == Some(Get(body, "name").s)
    ensures r.Some? && Get(body, "email").Str? ==> r.value.email == validate(Get(body, "email").s)
  {
    match (OptionalStr(body, "name"), OptionalStr(body, "email"))
    case (Some(name), Some(None)) => Some(UserUpdate(name, None))
    case (Some(name), Some(Some(e))) =>
      (match validate(e)
       case Some(email) => Some(UserUpdate(name, Some(email)))
       case None => None)
    case _ => None
  }

  /** The empty update is valid. */
  lemma EmptyUserUpdateIsValid(validate: EmailValidator)
    ensures ParseUserUpdate(map[], validate) == Some(UserUpdate(None, None))
  {
  }

  /** `UserResponse`: e-mail, optional name, id and the two optional
      timestamps; it has no password field of any kind. */
  datatype UserResponse = UserResponse(
    email: string,
    name: Option<string>,
    id: int,
    createdAt: Option<int>,
    updatedAt: Option<int>)

  /** `UserResponse.model_validate(user)` (`from_attributes`): succeeds when
      the record has an id and a valid address, and copies every column but
      the password hash. */
  function UserResponseOf(u: User, validate: EmailValidator): (r: Option<UserResponse>)
    ensures r.Some? <==> u.id.Some? && validate(u.email).Some?
    ensures r.Some? ==> r.value == UserResponse(validate(u.email).value, u.name, u.id.value, u.createdAt, u.updatedAt)
  {
    match (u.id, validate(u.email))
    case (Some(id), Some(email)) => Some(UserResponse(email, u.name, id, u.createdAt, u.updatedAt))
    case _ => None
  }

  /** The response does not depend on the password hash. */
  lemma ResponseHidesPasswordHash(u: User, hash: string, validate: EmailValidator)
    ensures UserResponseOf(u.(passwordHash := hash), validate) == UserResponseOf(u, validate)
  {
  }

  datatype TokenResponse = TokenResponse(accessToken: string, tokenType: string, user: UserResponse)

  /** `TokenResponse` with an already validated `user`: `access_token` is
      required and `token_type` defaults to "bearer". */
  function ParseTokenResponse(body: Payload, user: UserResponse): (r: Option<TokenResponse>)
    ensures r.Some? <==> "access_token" in body && body["access_token"].Str?
                         && ("token_type" !in body || body["token_type"].Str?)
    ensures r.Some? && "token_type" !in body ==> r.value.tokenType == DefaultTokenType
    ensures r.Some? ==> r.value.accessToken == body["access_token"].s && r.value.user == user
    ensures r.Some? && "token_type" in body ==> r.value.tokenType == body["token_type"].s
  {
    match RequiredStr(body, "access_token")
    case None => None
    case Some(token) =>
      if "token_type" !in body then Some(TokenResponse(token, DefaultTokenType, user))
      else if body["token_type"].Str? then Some(TokenResponse(token, body["token_type"].s, user))
      else None
  }
}
